=== FILE: README.md ===
# go-sigma-rule-engine: condition front end and rule bookkeeping, in Dafny

This project models the work-in-progress condition compiler and the rule
bookkeeping of go-sigma-rule-engine, a Go library that compiles Sigma
detection rules and matches them against events. The model covers these parts:

- **Token collection and validation** (`parser.collectAndValidateTokenSequences`, `parser.run`).
  The lexer's items are read in order. An unsupported item or an illegal
  adjacent pair aborts the read. EOF items are dropped, and the stream must end in EOF.
- **The search dispatcher** (`parseSearch`). It refuses `them`, wildcard
  identifiers, `1 of` / `all of` and any stream with parenthesised groups.
- **The flat-sequence accumulator** (`parseSimpleSearch`). It builds an operand
  list and a parallel operator list that starts with a `TokNil` placeholder.
  In this snapshot it never returns a tree: it returns either a leaf-builder
  error or "WIP".
- **Detection accessors** (`SearchExpr.Guess`, `Detection.Get`, `Fields`,
  `FieldSlice`, `RawRule.Condition`, `GetCondition`).
- **Rule bookkeeping** (`RuleGroup.Check`, `RuleMap.Check`, `RuleMap.Clone`,
  `Config.Validate`, `ExpandHome`). This includes the loops of `NewRuleset`
  that route compile errors to *unsupported* or *broken* and group rules by
  log-source product.
- **The test event `dummyObject2`**. It has a fixed-order message list and a
  keyed field lookup.

Modules: `Wrappers` (Option/Result), `SigmaTypes` (types.go), `Condition`
(condition_parser.go), `Sigma` (sigma.go), `TestEvent` (condition_test.go).

Code that is not part of this model enters as function parameters, and the
model assumes nothing about them. These are: `validTokenSequence`,
`tokens.contains`, `newGroupOffsetInTokens`, `newRuleMatcherFromIdent`,
`ParseDetection`, `Tree.Match`, `user.Current` and `filepath.Join`. Go's map
iteration order in `Detection.Fields` is a parameter too: a sequence of the
detection's keys. `Fields` asks only that every entry is a key. `FieldSlice`
and the exact-count results ask for the map's full iteration order, which
lists each key exactly once. A Go `error` is `SigmaTypes.Error`. It holds one of the declared
error types by value or by pointer, or a plain formatted message. With that
shape, the type switch in `NewRuleset` can be modelled case for case.

## Model

| member | source | states |
|---|---|---|
| `SigmaTypes.Guess` | pkg/sigma/types.go:100-107 | name and content are kept; the kind is Keywords exactly when the name starts with "keyword", Selection otherwise, never Unk |
| `SigmaTypes.GuessDependsOnNameOnly` | pkg/sigma/types.go:100-107 | the result ignores the prior kind, so guessing twice equals guessing once; content does not affect the kind |
| `SigmaTypes.Get` | pkg/sigma/types.go:137-146 | nil exactly for an absent key; otherwise name = key, content = d[key], kind from the name prefix |
| `SigmaTypes.GetDoesNotExcludeCondition` | pkg/sigma/types.go:111-146 | for every detection holding "condition", Get answers for it as a selection, while Fields never yields it, under any iteration order, yields fewer expressions than the order has keys whenever the order reaches it, and exactly one fewer when the order is the map's own iteration order (every key once) |
| `SigmaTypes.WithoutConditionCount` | pkg/sigma/types.go:111-125 | over a key order without repeats, skipping "condition" drops exactly one key when it occurs and none otherwise |
| `SigmaTypes.Fields` | pkg/sigma/types.go:111-126 | every yielded expression is the Get of a key other than "condition" taken from the iteration order; no more expressions than keys |
| `SigmaTypes.FieldsFollowOrder` | pkg/sigma/types.go:111-126 | one expression is yielded per key other than "condition", in map iteration order |
| `SigmaTypes.WithoutConditionExact` | pkg/sigma/types.go:111-126 | over a duplicate-free iteration order, the yielded names are exactly the order's keys other than "condition", each once |
| `SigmaTypes.FieldSlice` | pkg/sigma/types.go:128-135 | the names are exactly the keys other than "condition", each once |
| `SigmaTypes.Condition` | pkg/sigma/types.go:69-77 | succeeds exactly when "condition" maps to a string, and returns that string; an empty detection and a missing or non-string value are errors |
| `SigmaTypes.GetCondition` | pkg/sigma/types.go:79-84 | the condition string on success, "" otherwise |
| `Condition.CollectAndValidate` | pkg/condition/condition_parser.go:122-145 | earlier tokens are kept; no stored token is EOF or unsupported; success leaves EOF as the last kind seen |
| `Condition.CollectAcceptsExactly` | pkg/condition/condition_parser.go:122-145 | validation succeeds iff no item is unsupported, every item is a valid successor of the kind before it, and the last kind seen is EOF |
| `Condition.CollectStoresWithoutEof` | pkg/condition/condition_parser.go:122-145 | on success the stored tokens are the input items without EOF, in order, after the tokens already held |
| `Condition.CollectFirstFault` | pkg/condition/condition_parser.go:125-139 | the first rejected item decides the error; an unsupported item reports its text even when its pair is also illegal; an illegal pair names the kind seen before it |
| `Condition.CollectUnterminated` | pkg/condition/condition_parser.go:122-145 | when no item is rejected but the last kind seen is not EOF, the error names that kind as the missing terminator, and every item except EOF ones has been stored |
| `Condition.CollectStoresBeforeFault` | pkg/condition/condition_parser.go:125-139 | when the read stops at the first rejected item, the items before it are already stored, without EOF |
| `Condition.Mark` | pkg/condition/condition_parser.go:72-77 | the operand is wrapped in NodeNot exactly when a negation is pending |
| `Condition.ScanFailureSticks` | pkg/condition/condition_parser.go:64-67 | a leaf-builder error ends the scan; later items cannot change the outcome |
| `Condition.ScanFails` | pkg/condition/condition_parser.go:63-67 | the scan fails exactly when some identifier's leaf cannot be built, with the first such error |
| `Condition.Step` | pkg/condition/condition_parser.go:57-79 | one iteration: it fails exactly for an identifier whose leaf cannot be built, with the builder's error; an identifier appends its leaf, negated when a `not` is pending; earlier operators are kept and at most one TokNil/and/or is added; the operator list stays at least as long as the operand list |
| `Condition.Scan` | pkg/condition/condition_parser.go:50-80 | after any prefix, a successful accumulator holds one operand per identifier, and its operator list starts with TokNil and is never shorter than the operand list |
| `Condition.ScanShape` | pkg/condition/condition_parser.go:50-80 | a successful accumulator's operator list holds only TokNil, and, or |
| `Condition.ScanNegation` | pkg/condition/condition_parser.go:57-79 | the negation flag is set exactly when a `not` follows the last identifier, so `not` marks only the next identifier |
| `Condition.ScanOperands` | pkg/condition/condition_parser.go:63-79 | the k-th operand is the leaf built for the k-th identifier, negated exactly when a `not` came after the previous identifier |
| `Condition.ScanAlternatingLengths` | pkg/condition/condition_parser.go:59-71 | when identifiers and operators alternate, the operator list has the operand list's length after each identifier and is one longer after each operator |
| `Condition.ScanAfterOperand` | pkg/condition/condition_parser.go:59-79 | once the last operand-or-operator read is an operand, the operator list is never exactly one longer than the operand list |
| `Condition.ScanPlaceholder` | pkg/condition/condition_parser.go:68-71 | an operand that directly follows another operand (only `not` or other non-operators between them) appends exactly one TokNil placeholder to the operator list |
| `Condition.ScanAlternating` | pkg/condition/condition_parser.go:59-71 | when identifiers and operators alternate, no placeholder is added: the operator list is TokNil then the operators in order |
| `Condition.SimpleSearch` | pkg/condition/condition_parser.go:49-84 | never a tree; "WIP" exactly when every identifier's leaf builds, otherwise the first leaf error |
| `Condition.ParseSimpleSearch` | pkg/condition/condition_parser.go:49-84 | the loop computes the scan's verdict and accumulator; the operator list starts with TokNil and is never shorter than the operand list |
| `Condition.ParseSearch` | pkg/condition/condition_parser.go:12-45 | always an error; `them`, wildcard and `1 of`/`all of` streams are refused first, in that order; a group-discovery error is returned as is; a stream with groups is refused, or aborts when the detection's condition is not a string; otherwise the accumulator's verdict |
| `Condition.ParseSearchRejectsFirst` | pkg/condition/condition_parser.go:22-33 | refused forms are refused before group discovery and leaf building: the outcome does not depend on either |
| `Condition.Run` | pkg/condition/condition_parser.go:106-120 | fails without a lexer; reports the validation error when validation fails; otherwise reports the dispatcher's error on the collected tokens with a default (case-sensitive) config; always an error in this snapshot |
| `Condition.RunStopsAtValidation` | pkg/condition/condition_parser.go:106-120 | after a validation failure the dispatcher is never consulted: the outcome is the same whatever the helpers |
| `Sigma.ExpandHome` | pkg/sigma/sigma.go:224-234 | an empty path or one not starting with '~' comes back unchanged without error; otherwise home joined with the rest, or the lookup error |
| `Sigma.ExpandAll` | pkg/sigma/sigma.go:28-35 | the list keeps its length; success iff every expansion succeeds, and then every entry is its expansion; each entry is either unchanged or expanded; a reported error is the user lookup's error, and then the list comes back as it was (the entries rewritten before the failure had no leading '~') |
| `Sigma.ExpandAllStopsAt` | pkg/sigma/sigma.go:28-33 | when entry j is the first that fails to expand, the lookup error is reported and entries j onward are left as they were |
| `Sigma.ExpandAllRewritesBefore` | pkg/sigma/sigma.go:28-33 | when entry j is the first that fails to expand, every entry before j has already been rewritten to its expansion, which is the entry itself |
| `Sigma.Validate` | pkg/sigma/sigma.go:23-36 | an empty directory list is the "Missing sigma rule directory" error; otherwise success iff every expansion succeeds, and a reported error is the user lookup's error, with the list unchanged |
| `Sigma.ValidateStopsAt` | pkg/sigma/sigma.go:23-36 | on a list whose first failing entry is j: the lookup error, the entries before j rewritten, entries j onward unchanged |
| `Sigma.ValidateWithoutTilde` | pkg/sigma/sigma.go:23-36 | with no '~' paths, a non-empty list validates and stays unchanged |
| `Sigma.CheckGroup` | pkg/sigma/sigma.go:61-79 | true iff some rule matches; without firstmatch, all matching rules' results in group order; with it, exactly the first matching rule's result; (nil, false) when nothing matches |
| `Sigma.CheckSpecDeterministic` | pkg/sigma/sigma.go:61-79 | the group check's promise determines its results and flag completely |
| `Sigma.CheckMap` | pkg/sigma/sigma.go:95-100 | an absent group yields (nil, false); a present one behaves as its group check |
| `Sigma.Clone` | pkg/sigma/sigma.go:83-93 | same key set; each group has the same length and equal elements |
| `Sigma.CloneIsCopy` | pkg/sigma/sigma.go:83-93 | the clone equals the original |
| `Sigma.Classify` | pkg/sigma/sigma.go:156-171 | unsupported exactly for ErrUnsupportedToken, ErrIncompleteDetection and ErrWip, by value or pointer; broken otherwise |
| `Sigma.ClassifyIgnoresIndirection` | pkg/sigma/sigma.go:157-157 | value and pointer forms share a bucket; formatted errors are broken |
| `Sigma.RoutePartition` | pkg/sigma/sigma.go:152-178 | every decoded rule lands in exactly one of rules, unsupported, broken |
| `Sigma.RejectedCarriesOwnRule` | pkg/sigma/sigma.go:153-171 | each set-aside entry carries the path, error and raw rule of its own decoded rule |
| `Sigma.Route` | pkg/sigma/sigma.go:152-178 | compiled rules in order; unsupported errors appended after the earlier entries; other errors broken; counts add up to the decoded count |
| `Sigma.RejectedAsWritten` | pkg/sigma/sigma.go:158-169 | as written, every set-aside entry's Rule is the last decoded rule |
| `Sigma.RejectedAsWrittenLosesRule` | pkg/sigma/sigma.go:158-169 | two refused rules: the first entry names a.yml but carries rule b |
| `Sigma.MissingProductAsWritten` | pkg/sigma/sigma.go:186-191 | as written, every missing-product entry's Rule is the last compiled rule |
| `Sigma.MissingProductAsWrittenLosesRule` | pkg/sigma/sigma.go:186-191 | a product-less rule followed by another: its entry names a.yml but carries rule b |
| `Sigma.MissingProductCarriesOwnRule` | pkg/sigma/sigma.go:184-194 | each missing-product entry carries its own rule's path and raw rule |
| `Sigma.PlaceKeepsGroups` | pkg/sigma/sigma.go:195-200 | appending a rule under its product keeps every group equal to that product's rules and raises the total by one |
| `Sigma.GroupByProduct` | pkg/sigma/sigma.go:182-201 | keys are the non-empty products; each group is its product's rules in order; product-less rules are set aside and subtracted, so Total equals the sum of group lengths |
| `Sigma.NewRuleset` | pkg/sigma/sigma.go:112-203 | validation errors give (nil, err); no compiled rule gives the partial ruleset and an error; otherwise the grouped ruleset, whose Total plus new unsupported plus broken equals the decoded count |
| `TestEvent.GetMessage` | pkg/sigma/condition_test.go:10-23 | the values of Image, CommandLine and ParentImage, in that order, absent keys skipped; at most three; none present gives an empty list |
| `TestEvent.PresentBounded` | pkg/sigma/condition_test.go:16-22 | at most one value per key, and each value is some present key's value |
| `TestEvent.GetField` | pkg/sigma/condition_test.go:26-31 | (d[key], true) for a present key, (nil, false) for an absent one |
| `TestEvent.MessagesAreFields` | pkg/sigma/condition_test.go:10-31 | every message value is a successful field lookup of one of the message keys |

## Left out

- The lexer, `validTokenSequence`, `tokens.contains`, `newGroupOffsetInTokens`, `newRuleMatcherFromIdent`, `ParseDetection`, `Tree.Match` and the match package are not part of this model. They are abstract parameters with no assumed semantics, so wildcard and selection matching are not modelled.
- The `Token` type's declaration and zero value are not part of this model. The initial `previous` kind is a field of `Condition.Parser`.
- Precedence folding, quantifiers and group recursion are refused by this snapshot with TODO/WIP errors. They are modelled only as those errors.
- The fixtures, `TestParse` and `invalidConditions` in condition_test.go are left out. Their verdicts depend on `ParseDetection`.
- File discovery, `ioutil.ReadFile`, YAML decoding and the "---" multi-part check are I/O. `Sigma.NewRuleset` therefore starts from the decoded rules and from the entries set aside while reading. The early returns for read or decode errors are not modelled.
- `ExpandHome`'s user lookup and `filepath.Join` are parameters. One lookup outcome serves every directory of a `Validate` call, because Go's `user.Current` computes its answer, error included, once per process and returns it on every later call.
- The goroutine and channel in `Detection.Fields` carry no logic. The result is a sequence in a given iteration order.
- Debug `fmt.Printf` / `json.Marshal` output, the `Error()` string methods and `UnsupportedRawRule.Raw` are left out. Formatted errors keep their fixed text only: `Condition.BadSequence` and `Condition.NotEofTerminated` carry the kinds instead of the formatted message, and the "unable to parse any rules" error omits the directory list.
- The parser's debug fields `condition` and `rules` are left out.
- `Condition.ParseSearch`: when groups are found, the source prints `data["condition"].(string)`, an unchecked type assertion that panics when the key is missing or not a string. The model returns the distinct outcome `ParseError.ConditionNotText` there instead of unwinding the goroutine.
- The package `pkg/types`, which condition_parser.go imports, is not part of this model. Its `Detection.Get` and `ErrUnsupportedToken` are modelled by `SigmaTypes`, on the assumption that they match pkg/sigma/types.go. In Go they are distinct types, so the type switch of `NewRuleset` would not recognise the parser's `ErrUnsupportedToken`. `Sigma.Classify` describes only errors of pkg/sigma's own types.
- `Sigma.CloneIsCopy`: Dafny values have no identity, so the clone's fresh backing arrays (writes to the clone do not reach the original) cannot be expressed. Equality is the whole claim.
- `Condition.SimpleSearch` returns a plain formatted "WIP" error (`ParseError.WorkInProgress`), not the `ErrWip` type. If such an error reached `NewRuleset` it would be classified as broken. How `ParseDetection` wraps it is not part of this model.
- `Sigma.Route`, `Sigma.GroupByProduct`, `Sigma.NewRuleset`: these use the corrected entries, which carry their own rule. The aliased form the source produces is modelled separately under Findings.

## Findings

| source | as written | input that shows it | evidently intended | confidence | as-written member | corrected member |
|---|---|---|---|---|---|---|
| pkg/sigma/sigma.go:160 | `Rule: &dec.RawRule` takes the address of the range variable. That is one variable under Go's loop semantics before 1.22, so after the loop every unsupported or broken entry points at the last decoded rule. | two decoded rules a.yml and b.yml, both refused with ErrWip: the first entry's Path is a.yml but its Rule is rule b | each entry points at its own rule | not executed; holds when the module's Go version predates 1.22 (go.mod is not part of this model) | `Sigma.RejectedAsWritten`, `Sigma.RejectedAsWrittenLosesRule` | `Sigma.Rejected`, `Sigma.RejectedCarriesOwnRule` |
| pkg/sigma/sigma.go:188 | `Rule: &rule.RawRule` has the same aliasing, so every "Missing PRODUCT" entry points at the last compiled rule. | a compiled rule a.yml without product, followed by rule b.yml with one: the entry's Path is a.yml but its Rule is rule b | each entry points at its own rule | not executed; same Go-version condition | `Sigma.MissingProductAsWritten`, `Sigma.MissingProductAsWrittenLosesRule` | `Sigma.MissingProduct`, `Sigma.MissingProductCarriesOwnRule` |

=== FILE: condition_parser.dfy ===
/** The condition-compilation front end of this snapshot
    (pkg/condition/condition_parser.go): collection and validation of the
    lexer's items, the search dispatcher, and the flat-sequence accumulator.
    The lexer and the helpers validTokenSequence, tokens.contains,
    newGroupOffsetInTokens and newRuleMatcherFromIdent are not part of this
    model; they enter as function parameters. */
module Condition {
  import opened Wrappers
  import opened SigmaTypes

  /** Token kinds the lexer emits. */
  datatype Token =
    | TokNil
    | TokUnsupp
    | LitEof
    | SepLpar
    | SepRpar
    | Identifier
    | IdentifierWithWildcard
    | IdentifierAll
    | KeywordAnd
    | KeywordOr
    | KeywordNot
    | StOf
    | StOne
    | StAll

  /** One lexer item: its kind and the text it was read from. */
  datatype Item = Item(kind: Token, val: string)

  /** Matching-tree branches built here: a leaf built by the (abstract) rule
      matcher builder, possibly wrapped in a negation. */
  datatype Branch<L> = Leaf(matcher: L) | NodeNot(branch: Branch<L>)

  datatype ParseError =
    | Typed(err: Error)                                      // an error from the types package or a helper
    | NoLexer                                                // lexer not initialized
    | BadSequence(previous: Token, next: Token, val: string) // illegal adjacent pair
    | NotEofTerminated(last: Token)                          // last element should be EOF
    | TodoThem
    | TodoWildcard
    | TodoQuantifier
    | TodoSubGroups
    | WorkInProgress                                         // a plain formatted "WIP" error
    | ConditionNotText                                       // panic: the detection's "condition" is not a string

  /** Outcome of group discovery: an error, or whether any group was found. */
  datatype Groups = GroupError(err: Error) | Groups(found: bool)

  /** The parser record; `lex` is None when the lexer is nil, and otherwise the
      finite sequence of items its channel delivers before it closes. */
  datatype Parser = Parser(lex: Option<seq<Item>>, tokens: seq<Item>, previous: Token, sigma: Detection)

  // ---------------------------------------------------------------------------
  // Pass 1: collect tokens and validate adjacent pairs
  // ---------------------------------------------------------------------------

  /** Parser fields after validation, and the error it reported, if any. */
  datatype Collected = Collected(tokens: seq<Item>, previous: Token, err: Option<ParseError>)

  /** Walks the items in order: an unsupported item aborts first, then an
      illegal pair with the previously seen kind; EOF items are not stored. */
  function CollectAndValidate(tokens: seq<Item>, previous: Token, items: seq<Item>, valid: (Token, Token) -> bool): (c: Collected)
    ensures |tokens| <= |c.tokens| <= |tokens| + |items| && c.tokens[..|tokens|] == tokens
    ensures forall i :: |tokens| <= i < |c.tokens| ==> c.tokens[i].kind != LitEof && c.tokens[i].kind != TokUnsupp
    ensures c.err.None? ==> c.previous == LitEof
    ensures c.err.Some? ==> c.err.value.Typed? || c.err.value.BadSequence? || c.err.value.NotEofTerminated?
    decreases |items|
  {
    if |items| == 0 then
      Collected(tokens, previous, if previous != LitEof then Some(NotEofTerminated(previous)) else None)
    else
      var item := items[0];
      if item.kind == TokUnsupp then
        Collected(tokens, previous, Some(Typed(ByValue(UnsupportedToken(item.val)))))
      else if !valid(previous, item.kind) then
        Collected(tokens, previous, Some(BadSequence(previous, item.kind, item.val)))
      else
        var stored := if item.kind != LitEof then tokens + [item] else tokens;
        var c := CollectAndValidate(stored, item.kind, items[1..], valid);
        assert c.tokens[..|tokens|] == stored[..|tokens|];
        c
  }

  /** The kind seen just before item `i` (for i == |items|, the last kind seen). */
  function PrevAt(previous: Token, items: seq<Item>, i: nat): Token
    requires i <= |items|
  {
    if i == 0 then previous else items[i - 1].kind
  }

  /** Item `i` is rejected: unsupported, or illegal after the kind before it. */
  predicate Faulty(previous: Token, items: seq<Item>, valid: (Token, Token) -> bool, i: nat)
    requires i < |items|
  {
    items[i].kind == TokUnsupp || !valid(PrevAt(previous, items, i), items[i].kind)
  }

  /** Reference acceptance: no item is faulty and the last kind seen is EOF. */
  predicate Accepts(previous: Token, items: seq<Item>, valid: (Token, Token) -> bool) {
    && (forall i :: 0 <= i < |items| ==> !Faulty(previous, items, valid, i))
    && PrevAt(previous, items, |items|) == LitEof
  }

  /** The items in order with every EOF item removed. */
  function WithoutEof(items: seq<Item>): seq<Item> {
    if |items| == 0 then []
    else (if items[0].kind != LitEof then [items[0]] else []) + WithoutEof(items[1..])
  }

  /** Acceptance after a non-faulty first item is acceptance of the rest,
      starting from that item's kind. */
  lemma AcceptsShift(previous: Token, items: seq<Item>, valid: (Token, Token) -> bool)
    requires |items| > 0 && !Faulty(previous, items, valid, 0)
    ensures Accepts(previous, items, valid) <==> Accepts(items[0].kind, items[1..], valid)
  {
    var rest := items[1..];
    if Accepts(items[0].kind, rest, valid) {
      forall i | 0 < i < |items|
        ensures !Faulty(previous, items, valid, i)
      {
        assert !Faulty(items[0].kind, rest, valid, i - 1);
      }
    }
    if Accepts(previous, items, valid) {
      forall i | 0 <= i < |rest|
        ensures !Faulty(items[0].kind, rest, valid, i)
      {
        assert !Faulty(previous, items, valid, i + 1);
      }
    }
  }

  /** After a non-faulty first item, validation continues from that item's
      kind with the item stored unless it is EOF. */
  lemma CollectUnfold(tokens: seq<Item>, previous: Token, items: seq<Item>, valid: (Token, Token) -> bool)
    requires |items| > 0 && !Faulty(previous, items, valid, 0)
    ensures CollectAndValidate(tokens, previous, items, valid)
         == CollectAndValidate(tokens + (if items[0].kind != LitEof then [items[0]] else []), items[0].kind, items[1..], valid)
  {
    assert tokens + [] == tokens;
  }

  /** Validation succeeds exactly when the reference acceptance holds. */
  lemma {:induction false} CollectAcceptsExactly(tokens: seq<Item>, previous: Token, items: seq<Item>, valid: (Token, Token) -> bool)
    ensures CollectAndValidate(tokens, previous, items, valid).err.None? <==> Accepts(previous, items, valid)
    decreases |items|
  {
    if |items| > 0 {
      var item := items[0];
      if !Faulty(previous, items, valid, 0) {
        var stored := tokens + (if item.kind != LitEof then [item] else []);
        CollectUnfold(tokens, previous, items, valid);
        CollectAcceptsExactly(stored, item.kind, items[1..], valid);
        AcceptsShift(previous, items, valid);
      } else {
        assert !Accepts(previous, items, valid);
      }
    }
  }

  /** On success the stored tokens are the input items without EOF, appended
      in order after the tokens already held. */
  lemma {:induction false} CollectStoresWithoutEof(tokens: seq<Item>, previous: Token, items: seq<Item>, valid: (Token, Token) -> bool)
    requires CollectAndValidate(tokens, previous, items, valid).err.None?
    ensures CollectAndValidate(tokens, previous, items, valid).tokens == tokens + WithoutEof(items)
    decreases |items|
  {
    if |items| > 0 {
      var item := items[0];
      var stored := tokens + (if item.kind != LitEof then [item] else []);
      assert !Faulty(previous, items, valid, 0);
      CollectUnfold(tokens, previous, items, valid);
      CollectStoresWithoutEof(stored, item.kind, items[1..], valid);
      ConcatAssoc(tokens, if item.kind != LitEof then [item] else [], WithoutEof(items[1..]));
    }
  }

  /** When no item is rejected but the last kind seen is not EOF, validation
      reports that kind as the missing terminator, after storing every item
      except EOF ones. */
  lemma {:induction false} CollectUnterminated(tokens: seq<Item>, previous: Token, items: seq<Item>, valid: (Token, Token) -> bool)
    requires forall i :: 0 <= i < |items| ==> !Faulty(previous, items, valid, i)
    requires PrevAt(previous, items, |items|) != LitEof
    ensures CollectAndValidate(tokens, previous, items, valid).err == Some(NotEofTerminated(PrevAt(previous, items, |items|)))
    ensures CollectAndValidate(tokens, previous, items, valid).tokens == tokens + WithoutEof(items)
    decreases |items|
  {
    if |items| > 0 {
      var item := items[0];
      var head := if item.kind != LitEof then [item] else [];
      assert !Faulty(previous, items, valid, 0);
      forall j | 0 <= j < |items| - 1
        ensures !Faulty(item.kind, items[1..], valid, j)
      {
        assert !Faulty(previous, items, valid, j + 1);
      }
      assert PrevAt(item.kind, items[1..], |items| - 1) == PrevAt(previous, items, |items|);
      CollectUnfold(tokens, previous, items, valid);
      CollectUnterminated(tokens + head, item.kind, items[1..], valid);
      ConcatAssoc(tokens, head, WithoutEof(items[1..]));
    } else {
      assert tokens + WithoutEof(items) == tokens;
    }
  }

  /** The error reported for a faulty item seen after `prev`: an unsupported
      item reports its text even when its pair is also illegal. */
  function FaultError(prev: Token, item: Item): ParseError {
    if item.kind == TokUnsupp then Typed(ByValue(UnsupportedToken(item.val)))
    else BadSequence(prev, item.kind, item.val)
  }

  /** The first faulty item decides the error: an unsupported item reports its
      text even when its pair is also illegal; otherwise the illegal pair is
      reported, naming the kind seen just before it. */
  lemma {:induction false} CollectFirstFault(tokens: seq<Item>, previous: Token, items: seq<Item>, valid: (Token, Token) -> bool, i: nat)
    requires i < |items| && Faulty(previous, items, valid, i)
    requires forall j :: 0 <= j < i ==> !Faulty(previous, items, valid, j)
    ensures CollectAndValidate(tokens, previous, items, valid).previous == PrevAt(previous, items, i)
    ensures CollectAndValidate(tokens, previous, items, valid).err == Some(FaultError(PrevAt(previous, items, i), items[i]))
    decreases |items|
  {
    if i > 0 {
      var item := items[0];
      var stored := tokens + (if item.kind != LitEof then [item] else []);
      FaultShift(previous, items, valid, i);
      CollectUnfold(tokens, previous, items, valid);
      CollectFirstFault(stored, item.kind, items[1..], valid, i - 1);
      assert items[1..][i - 1] == items[i];
    } else {
      CollectFaultAtHead(tokens, previous, items, valid);
    }
  }

  /** When validation stops at the first faulty item, the items before it
      have been stored already, without EOF. */
  lemma {:induction false} CollectStoresBeforeFault(tokens: seq<Item>, previous: Token, items: seq<Item>, valid: (Token, Token) -> bool, i: nat)
    requires i < |items| && Faulty(previous, items, valid, i)
    requires forall j :: 0 <= j < i ==> !Faulty(previous, items, valid, j)
    ensures CollectAndValidate(tokens, previous, items, valid).tokens == tokens + WithoutEof(items[..i])
    decreases |items|
  {
    if i > 0 {
      var item := items[0];
      var head := if item.kind != LitEof then [item] else [];
      var stored := tokens + head;
      FaultShift(previous, items, valid, i);
      CollectUnfold(tokens, previous, items, valid);
      CollectStoresBeforeFault(stored, item.kind, items[1..], valid, i - 1);
      WithoutEofPrefix(items, i);
      ConcatAssoc(tokens, head, WithoutEof(items[1..][..i - 1]));
    } else {
      CollectFaultAtHead(tokens, previous, items, valid);
    }
  }

  lemma ConcatAssoc<T>(a: seq<T>, b: seq<T>, c: seq<T>)
    ensures (a + b) + c == a + (b + c)
  {
  }

  /** A faulty first item stops validation with nothing stored. */
  lemma CollectFaultAtHead(tokens: seq<Item>, previous: Token, items: seq<Item>, valid: (Token, Token) -> bool)
    requires 0 < |items| && Faulty(previous, items, valid, 0)
    ensures CollectAndValidate(tokens, previous, items, valid).tokens == tokens + WithoutEof(items[..0])
    ensures CollectAndValidate(tokens, previous, items, valid).previous == previous
    ensures CollectAndValidate(tokens, previous, items, valid).err == Some(FaultError(previous, items[0]))
  {
    assert items[..0] == [];
  }

  /** Dropping a non-faulty first item shifts fault positions by one. */
  lemma FaultShift(previous: Token, items: seq<Item>, valid: (Token, Token) -> bool, i: nat)
    requires 0 < i < |items| && Faulty(previous, items, valid, i)
    requires forall j :: 0 <= j < i ==> !Faulty(previous, items, valid, j)
    ensures !Faulty(previous, items, valid, 0)
    ensures Faulty(items[0].kind, items[1..], valid, i - 1)
    ensures forall j :: 0 <= j < i - 1 ==> !Faulty(items[0].kind, items[1..], valid, j)
    ensures PrevAt(items[0].kind, items[1..], i - 1) == PrevAt(previous, items, i)
  {
    assert !Faulty(previous, items, valid, 0);
    forall j | 0 <= j < i - 1
      ensures !Faulty(items[0].kind, items[1..], valid, j)
    {
      assert !Faulty(previous, items, valid, j + 1);
    }
  }

  /** Removing EOF from a non-empty prefix peels off its first item. */
  lemma WithoutEofPrefix(items: seq<Item>, i: nat)
    requires 0 < i <= |items|
    ensures WithoutEof(items[..i])
         == (if items[0].kind != LitEof then [items[0]] else []) + WithoutEof(items[1..][..i - 1])
  {
    assert items[1..][..i - 1] == items[..i][1..];
  }

  // ---------------------------------------------------------------------------
  // The flat-sequence accumulator
  // ---------------------------------------------------------------------------

  /** Accumulator of parseSimpleSearch: the pending negation flag, the operand
      list and the parallel operator list. */
  datatype Acc<L> = Acc(negated: bool, rules: seq<Branch<L>>, modifiers: seq<Token>)

  /** A leaf, wrapped in NodeNot when a `not` is pending. */
  function Mark<L>(leaf: L, negated: bool): (b: Branch<L>)
    ensures b.NodeNot? <==> negated
    ensures b.NodeNot? ==> b.branch == Leaf(leaf)
    ensures b.Leaf? ==> b.matcher == leaf
  {
    if negated then NodeNot(Leaf(leaf)) else Leaf(leaf)
  }

  /** One iteration of the accumulator loop. Only an identifier whose leaf
      cannot be built fails, with the builder's error; an identifier appends
      its leaf, negated when a `not` is pending; the operators seen so far are
      kept and at most one modifier is added; the operator list stays at
      least as long as the operand list. */
  function Step<L>(acc: Acc<L>, item: Item, data: Detection, lowerCase: bool,
                   build: (Option<SearchExpr>, bool) -> Result<L, Error>): (r: Result<Acc<L>, Error>)
    ensures r.Failure? <==> item.kind == Identifier && build(Get(data, item.val), lowerCase).Failure?
    ensures r.Failure? ==> r.error == build(Get(data, item.val), lowerCase).error
    ensures r.Success? ==>
              r.value.rules == acc.rules + (if item.kind == Identifier
                                            then [Mark(build(Get(data, item.val), lowerCase).value, acc.negated)]
                                            else [])
    ensures r.Success? ==> |acc.modifiers| <= |r.value.modifiers| <= |acc.modifiers| + 1
                           && r.value.modifiers[..|acc.modifiers|] == acc.modifiers
    ensures r.Success? && |r.value.modifiers| > |acc.modifiers| ==> IsModifier(r.value.modifiers[|acc.modifiers|])
    ensures r.Success? && |acc.modifiers| >= |acc.rules| ==> |r.value.modifiers| >= |r.value.rules|
  {
    match item.kind
    case KeywordNot => Success(acc.(negated := true))
    case KeywordAnd => AppendKeepsPrefix(acc.modifiers, KeywordAnd); Success(acc.(modifiers := acc.modifiers + [KeywordAnd]))
    case KeywordOr => AppendKeepsPrefix(acc.modifiers, KeywordOr); Success(acc.(modifiers := acc.modifiers + [KeywordOr]))
    case Identifier =>
      var leaf := build(Get(data, item.val), lowerCase);
      if leaf.Failure? then Failure(leaf.error)
      else
        AppendKeepsPrefix(acc.modifiers, TokNil);
        var modifiers := if |acc.modifiers| - 1 != |acc.rules| then acc.modifiers + [TokNil] else acc.modifiers;
        Success(Acc(false, acc.rules + [Mark(leaf.value, acc.negated)], modifiers))
    case _ => Success(acc)
  }

  /** Appending an operator keeps the earlier ones. */
  lemma AppendKeepsPrefix(modifiers: seq<Token>, k: Token)
    ensures (modifiers + [k])[..|modifiers|] == modifiers
  {
  }

  /** The accumulator after the items of `t`, or the first leaf-builder
      error. A successful accumulator holds one operand per identifier, and
      its operator list starts with the TokNil placeholder and is never
      shorter than the operand list. */
  function Scan<L>(t: seq<Item>, data: Detection, lowerCase: bool,
                   build: (Option<SearchExpr>, bool) -> Result<L, Error>): (r: Result<Acc<L>, Error>)
    ensures r.Success? ==> && |r.value.rules| == IdentCount(t)
                           && |r.value.modifiers| >= 1 && r.value.modifiers[0] == TokNil
                           && |r.value.modifiers| >= |r.value.rules|
    decreases |t|
  {
    if |t| == 0 then Success(Acc(false, [], [TokNil]))
    else
      var prior := Scan(t[..|t| - 1], data, lowerCase, build);
      if prior.Failure? then prior else Step(prior.value, t[|t| - 1], data, lowerCase, build)
  }

  /** parseSimpleSearch's verdict: it never returns a tree, only the first
      leaf-builder error or "WIP". */
  function SimpleSearch<L>(t: seq<Item>, data: Detection, lowerCase: bool,
                           build: (Option<SearchExpr>, bool) -> Result<L, Error>): (r: Result<Branch<L>, ParseError>)
    ensures r.Failure?
    ensures r.error == WorkInProgress <==> forall i :: 0 <= i < |t| && t[i].kind == Identifier ==> build(Get(data, t[i].val), lowerCase).Success?
    ensures r.error != WorkInProgress ==>
              exists i :: && 0 <= i < |t| && t[i].kind == Identifier
                          && build(Get(data, t[i].val), lowerCase).Failure?
                          && r.error == Typed(build(Get(data, t[i].val), lowerCase).error)
                          && forall j :: 0 <= j < i && t[j].kind == Identifier ==> build(Get(data, t[j].val), lowerCase).Success?
  {
    ScanFails(t, data, lowerCase, build);
    match Scan(t, data, lowerCase, build)
    case Failure(e) => Failure(Typed(e))
    case Success(_) => Failure(WorkInProgress)
  }

  /** Once a prefix fails, the whole scan fails with the same error. */
  lemma {:induction false} ScanFailureSticks<L>(t: seq<Item>, n: nat, data: Detection, lowerCase: bool,
                                                build: (Option<SearchExpr>, bool) -> Result<L, Error>)
    requires n <= |t|
    requires Scan(t[..n], data, lowerCase, build).Failure?
    ensures Scan(t, data, lowerCase, build) == Scan(t[..n], data, lowerCase, build)
    decreases |t|
  {
    if n < |t| {
      var front := t[..|t| - 1];
      assert front[..n] == t[..n];
      ScanFailureSticks(front, n, data, lowerCase, build);
    } else {
      assert t[..n] == t;
    }
  }

  /** The scan fails exactly when some identifier's leaf cannot be built, and
      it reports the error of the first such identifier. */
  lemma {:induction false} ScanFails<L>(t: seq<Item>, data: Detection, lowerCase: bool,
                                        build: (Option<SearchExpr>, bool) -> Result<L, Error>)
    ensures Scan(t, data, lowerCase, build).Failure? <==>
              exists i :: 0 <= i < |t| && t[i].kind == Identifier && build(Get(data, t[i].val), lowerCase).Failure?
    ensures Scan(t, data, lowerCase, build).Failure? ==>
              exists i :: && 0 <= i < |t| && t[i].kind == Identifier
                          && build(Get(data, t[i].val), lowerCase).Failure?
                          && Scan(t, data, lowerCase, build).error == build(Get(data, t[i].val), lowerCase).error
                          && forall j :: 0 <= j < i && t[j].kind == Identifier ==> build(Get(data, t[j].val), lowerCase).Success?
    decreases |t|
  {
    if |t| > 0 {
      var front := t[..|t| - 1];
      ScanFails(front, data, lowerCase, build);
      assert forall i :: 0 <= i < |front| ==> front[i] == t[i];
      var last := |t| - 1;
      if Scan(front, data, lowerCase, build).Success? {
        if t[last].kind == Identifier && build(Get(data, t[last].val), lowerCase).Failure? {
          assert forall j :: 0 <= j < last && t[j].kind == Identifier ==> build(Get(data, t[j].val), lowerCase).Success?;
        }
      }
    }
  }

  /** A successful scan of a non-empty sequence is one step from the
      successful scan of its front. */
  lemma ScanLast<L>(t: seq<Item>, data: Detection, lowerCase: bool,
                    build: (Option<SearchExpr>, bool) -> Result<L, Error>)
    requires |t| > 0 && Scan(t, data, lowerCase, build).Success?
    ensures Scan(t[..|t| - 1], data, lowerCase, build).Success?
    ensures Step(Scan(t[..|t| - 1], data, lowerCase, build).value, t[|t| - 1], data, lowerCase, build)
         == Scan(t, data, lowerCase, build)
  {
  }

  /** What one successful step does to each part of the accumulator. */
  lemma StepEffect<L>(acc: Acc<L>, item: Item, data: Detection, lowerCase: bool,
                      build: (Option<SearchExpr>, bool) -> Result<L, Error>)
    requires Step(acc, item, data, lowerCase, build).Success?
    ensures var b := Step(acc, item, data, lowerCase, build).value;
            && b.negated == (if item.kind == KeywordNot then true else if item.kind == Identifier then false else acc.negated)
            && b.modifiers == (if item.kind == KeywordAnd || item.kind == KeywordOr then acc.modifiers + [item.kind]
                               else if item.kind == Identifier && |acc.modifiers| - 1 != |acc.rules| then acc.modifiers + [TokNil]
                               else acc.modifiers)
            && |b.rules| == |acc.rules| + (if item.kind == Identifier then 1 else 0)
            && b.rules[..|acc.rules|] == acc.rules
  {
    if item.kind == Identifier {
      var b := Step(acc, item, data, lowerCase, build).value;
      assert b.rules[..|acc.rules|] == acc.rules;
    }
  }

  /** Number of identifier items in `t`. */
  function IdentCount(t: seq<Item>): nat {
    if |t| == 0 then 0
    else IdentCount(t[..|t| - 1]) + (if t[|t| - 1].kind == Identifier then 1 else 0)
  }

  /** A `not` occurs after the last identifier of `t`. */
  ghost predicate NotPending(t: seq<Item>) {
    exists j :: 0 <= j < |t| && t[j].kind == KeywordNot &&
      forall m :: j < m < |t| ==> t[m].kind != Identifier
  }

  predicate IsModifier(k: Token) {
    k == TokNil || k == KeywordAnd || k == KeywordOr
  }

  /** The operator list starts with the TokNil placeholder, holds only
      placeholders and logical operators, and is never shorter than the
      operand list. */
  predicate WellShaped<L>(acc: Acc<L>) {
    && |acc.modifiers| >= 1 && acc.modifiers[0] == TokNil
    && |acc.modifiers| >= |acc.rules|
    && (forall k :: 0 <= k < |acc.modifiers| ==> IsModifier(acc.modifiers[k]))
  }

  /** A successful scan's operator list holds only placeholders and logical
      operators. */
  lemma {:induction false} ScanShape<L>(t: seq<Item>, data: Detection, lowerCase: bool,
                                        build: (Option<SearchExpr>, bool) -> Result<L, Error>)
    requires Scan(t, data, lowerCase, build).Success?
    ensures WellShaped(Scan(t, data, lowerCase, build).value)
    decreases |t|
  {
    if |t| > 0 {
      var front := t[..|t| - 1];
      ScanLast(t, data, lowerCase, build);
      ScanShape(front, data, lowerCase, build);
      var a := Scan(front, data, lowerCase, build).value;
      var b := Scan(t, data, lowerCase, build).value;
      forall k | 0 <= k < |b.modifiers|
        ensures IsModifier(b.modifiers[k])
      {
        if k < |a.modifiers| {
          assert b.modifiers[k] == b.modifiers[..|a.modifiers|][k];
        }
      }
    }
  }

  /** `t` has a pending `not` exactly when its last item is `not`, or its last
      item is not an identifier and its front has a pending `not`. */
  lemma NotPendingLast(t: seq<Item>)
    requires |t| > 0
    ensures NotPending(t) <==>
              t[|t| - 1].kind == KeywordNot || (t[|t| - 1].kind != Identifier && NotPending(t[..|t| - 1]))
  {
    var front := t[..|t| - 1];
    var last := t[|t| - 1];
    if last.kind == KeywordNot {
      assert t[|t| - 1].kind == KeywordNot;
    } else if last.kind == Identifier {
      assert !NotPending(t);
    } else {
      if NotPending(t) {
        var j :| 0 <= j < |t| && t[j].kind == KeywordNot && forall m :: j < m < |t| ==> t[m].kind != Identifier;
        assert j < |front| && front[j] == t[j];
        assert forall m :: j < m < |front| ==> front[m] == t[m];
        assert NotPending(front);
      }
      if NotPending(front) {
        var j :| 0 <= j < |front| && front[j].kind == KeywordNot && forall m :: j < m < |front| ==> front[m].kind != Identifier;
        assert t[j].kind == KeywordNot;
        assert forall m :: j < m < |t| ==> t[m].kind != Identifier by {
          assert forall m :: j < m < |front| ==> front[m] == t[m];
        }
        assert NotPending(t);
      }
    }
  }

  /** The pending negation flag is set exactly when a `not` follows the last
      identifier: `not` marks only the next identifier, and the flag resets. */
  lemma {:induction false} ScanNegation<L>(t: seq<Item>, data: Detection, lowerCase: bool,
                                           build: (Option<SearchExpr>, bool) -> Result<L, Error>)
    requires Scan(t, data, lowerCase, build).Success?
    ensures Scan(t, data, lowerCase, build).value.negated <==> NotPending(t)
    decreases |t|
  {
    if |t| > 0 {
      var front := t[..|t| - 1];
      ScanLast(t, data, lowerCase, build);
      ScanNegation(front, data, lowerCase, build);
      StepEffect(Scan(front, data, lowerCase, build).value, t[|t| - 1], data, lowerCase, build);
      NotPendingLast(t);
    } else {
      assert !NotPending(t);
    }
  }

  /** Operand `k` of a successful scan is the leaf built for the k-th
      identifier, wrapped in NodeNot exactly when a `not` came after the
      previous identifier and before it. */
  lemma {:induction false} ScanOperands<L>(t: seq<Item>, data: Detection, lowerCase: bool,
                                           build: (Option<SearchExpr>, bool) -> Result<L, Error>)
    requires Scan(t, data, lowerCase, build).Success?
    ensures forall i :: 0 <= i < |t| && t[i].kind == Identifier ==>
              && build(Get(data, t[i].val), lowerCase).Success?
              && IdentCount(t[..i]) < |Scan(t, data, lowerCase, build).value.rules|
              && Scan(t, data, lowerCase, build).value.rules[IdentCount(t[..i])]
                 == Mark(build(Get(data, t[i].val), lowerCase).value, NotPending(t[..i]))
    decreases |t|
  {
    if |t| > 0 {
      var front := t[..|t| - 1];
      var last := |t| - 1;
      assert Scan(front, data, lowerCase, build).Success?;
      ScanOperands(front, data, lowerCase, build);
      ScanNegation(front, data, lowerCase, build);
      var accF := Scan(front, data, lowerCase, build).value;
      var acc := Scan(t, data, lowerCase, build).value;
      assert acc.rules[..|accF.rules|] == accF.rules;
      forall i | 0 <= i < |t| && t[i].kind == Identifier
        ensures && build(Get(data, t[i].val), lowerCase).Success?
                && IdentCount(t[..i]) < |acc.rules|
                && acc.rules[IdentCount(t[..i])] == Mark(build(Get(data, t[i].val), lowerCase).value, NotPending(t[..i]))
      {
        if i < last {
          assert front[..i] == t[..i];
          assert front[i] == t[i];
        } else {
          assert t[..i] == front;
        }
      }
    }
  }

  /** Kinds of the identifiers and logical operators of `t`, in order. */
  function Skeleton(t: seq<Item>): seq<Token> {
    if |t| == 0 then []
    else
      var k := t[|t| - 1].kind;
      Skeleton(t[..|t| - 1]) + (if k == Identifier || k == KeywordAnd || k == KeywordOr then [k] else [])
  }

  /** The logical operators of `t`, in order. */
  function Operators(t: seq<Item>): seq<Token> {
    if |t| == 0 then []
    else
      var k := t[|t| - 1].kind;
      Operators(t[..|t| - 1]) + (if k == KeywordAnd || k == KeywordOr then [k] else [])
  }

  /** Identifiers and operators alternate, starting with an identifier. */
  predicate Alternates(k: seq<Token>) {
    forall j :: 0 <= j < |k| ==> (k[j] == Identifier <==> j % 2 == 0)
  }

  /** When identifiers and operators alternate, the operator list is exactly
      as long as the operand list after each identifier, and one longer
      after each operator. */
  lemma {:induction false} ScanAlternatingLengths<L>(t: seq<Item>, data: Detection, lowerCase: bool,
                                                     build: (Option<SearchExpr>, bool) -> Result<L, Error>)
    requires Scan(t, data, lowerCase, build).Success?
    requires Alternates(Skeleton(t))
    ensures |Skeleton(t)| % 2 == 1 ==>
              |Scan(t, data, lowerCase, build).value.modifiers| == |Scan(t, data, lowerCase, build).value.rules|
    ensures |Skeleton(t)| % 2 == 0 ==>
              |Scan(t, data, lowerCase, build).value.modifiers| == |Scan(t, data, lowerCase, build).value.rules| + 1
    decreases |t|
  {
    if |t| > 0 {
      var front := t[..|t| - 1];
      SkeletonFront(t);
      ScanLast(t, data, lowerCase, build);
      ScanAlternatingLengths(front, data, lowerCase, build);
      StepLengths(Scan(front, data, lowerCase, build).value, t[|t| - 1], data, lowerCase, build, |Skeleton(front)|);
    }
  }

  /** One step under alternation: the length relation between the two lists
      follows the parity of the skeleton, before and after the item. */
  lemma StepLengths<L>(a: Acc<L>, item: Item, data: Detection, lowerCase: bool,
                       build: (Option<SearchExpr>, bool) -> Result<L, Error>, n: nat)
    requires Step(a, item, data, lowerCase, build).Success?
    requires n % 2 == 1 ==> |a.modifiers| == |a.rules|
    requires n % 2 == 0 ==> |a.modifiers| == |a.rules| + 1
    requires item.kind == Identifier ==> n % 2 == 0
    requires item.kind == KeywordAnd || item.kind == KeywordOr ==> n % 2 == 1
    ensures var b := Step(a, item, data, lowerCase, build).value;
            var m := if item.kind == Identifier || item.kind == KeywordAnd || item.kind == KeywordOr then n + 1 else n;
            && (m % 2 == 1 ==> |b.modifiers| == |b.rules|)
            && (m % 2 == 0 ==> |b.modifiers| == |b.rules| + 1)
  {
    StepEffect(a, item, data, lowerCase, build);
  }

  /** When identifiers and operators alternate, no extra placeholder is ever
      added: the operator list is TokNil followed by the operators in order. */
  lemma {:induction false} ScanAlternating<L>(t: seq<Item>, data: Detection, lowerCase: bool,
                                              build: (Option<SearchExpr>, bool) -> Result<L, Error>)
    requires Scan(t, data, lowerCase, build).Success?
    requires Alternates(Skeleton(t))
    ensures Scan(t, data, lowerCase, build).value.modifiers == [TokNil] + Operators(t)
    decreases |t|
  {
    if |t| > 0 {
      var front := t[..|t| - 1];
      var k := t[|t| - 1].kind;
      SkeletonFront(t);
      ScanLast(t, data, lowerCase, build);
      ScanAlternating(front, data, lowerCase, build);
      ScanAlternatingLengths(front, data, lowerCase, build);
      var a := Scan(front, data, lowerCase, build).value;
      StepEffect(a, t[|t| - 1], data, lowerCase, build);
      if k == KeywordAnd || k == KeywordOr {
        assert Operators(t) == Operators(front) + [k];
        ConcatAssoc([TokNil], Operators(front), [k]);
      } else {
        assert Operators(t) == Operators(front) + [];
        assert Operators(front) + [] == Operators(front);
      }
    }
  }

  /** Once the last operand-or-operator seen is an operand, the operator
      list is never exactly one longer than the operand list, so the next
      operand cannot reuse the pending slot. */
  lemma {:induction false} ScanAfterOperand<L>(t: seq<Item>, data: Detection, lowerCase: bool,
                                               build: (Option<SearchExpr>, bool) -> Result<L, Error>)
    requires |Skeleton(t)| > 0 && Skeleton(t)[|Skeleton(t)| - 1] == Identifier
    requires Scan(t, data, lowerCase, build).Success?
    ensures var a := Scan(t, data, lowerCase, build).value;
            |a.modifiers| - 1 != |a.rules|
    decreases |t|
  {
    var front := t[..|t| - 1];
    var k := t[|t| - 1].kind;
    ScanLast(t, data, lowerCase, build);
    var a := Scan(front, data, lowerCase, build).value;
    StepEffect(a, t[|t| - 1], data, lowerCase, build);
    if k != Identifier && k != KeywordAnd && k != KeywordOr {
      assert Skeleton(t) == Skeleton(front);
      ScanAfterOperand(front, data, lowerCase, build);
    }
  }

  /** The TokNil placeholder: an operand that directly follows another
      operand, with no operator between them, gets a TokNil in the operator
      list so that operators and operands keep lining up. */
  lemma {:induction false} ScanPlaceholder<L>(t: seq<Item>, x: Item, data: Detection, lowerCase: bool,
                                               build: (Option<SearchExpr>, bool) -> Result<L, Error>)
    requires |Skeleton(t)| > 0 && Skeleton(t)[|Skeleton(t)| - 1] == Identifier
    requires x.kind == Identifier && Scan(t + [x], data, lowerCase, build).Success?
    ensures Scan(t, data, lowerCase, build).Success?
    ensures Scan(t + [x], data, lowerCase, build).value.modifiers
         == Scan(t, data, lowerCase, build).value.modifiers + [TokNil]
  {
    assert (t + [x])[..|t|] == t;
    ScanLast(t + [x], data, lowerCase, build);
    ScanAfterOperand(t, data, lowerCase, build);
    StepEffect(Scan(t, data, lowerCase, build).value, x, data, lowerCase, build);
  }

  /** The skeleton of the front is a prefix of the skeleton, alternation
      carries over to it, and the last item's kind, when kept, sits right
      after it. */
  lemma SkeletonFront(t: seq<Item>)
    requires |t| > 0 && Alternates(Skeleton(t))
    ensures Alternates(Skeleton(t[..|t| - 1]))
    ensures var k := t[|t| - 1].kind;
            (k == Identifier || k == KeywordAnd || k == KeywordOr) ==>
              && |Skeleton(t)| == |Skeleton(t[..|t| - 1])| + 1
              && (k == Identifier <==> |Skeleton(t[..|t| - 1])| % 2 == 0)
    ensures var k := t[|t| - 1].kind;
            !(k == Identifier || k == KeywordAnd || k == KeywordOr) ==> Skeleton(t) == Skeleton(t[..|t| - 1])
  {
    var front := t[..|t| - 1];
    var k := t[|t| - 1].kind;
    assert Skeleton(t)[..|Skeleton(front)|] == Skeleton(front);
    forall j | 0 <= j < |Skeleton(front)|
      ensures Skeleton(front)[j] == Identifier <==> j % 2 == 0
    {
      assert Skeleton(front)[j] == Skeleton(t)[j];
    }
    if k == Identifier || k == KeywordAnd || k == KeywordOr {
      assert Skeleton(t)[|Skeleton(front)|] == k;
    }
  }

  /** parseSimpleSearch's verdict read off the scan. */
  lemma SimpleSearchOfScan<L>(t: seq<Item>, data: Detection, lowerCase: bool,
                              build: (Option<SearchExpr>, bool) -> Result<L, Error>)
    ensures Scan(t, data, lowerCase, build).Failure? ==>
              SimpleSearch(t, data, lowerCase, build) == Failure(Typed(Scan(t, data, lowerCase, build).error))
    ensures Scan(t, data, lowerCase, build).Success? ==> SimpleSearch(t, data, lowerCase, build) == Failure(WorkInProgress)
  {
  }

  /** Scanning one more item of `t` is one step from the shorter scan. */
  lemma ScanPrefixStep<L>(t: seq<Item>, i: nat, data: Detection, lowerCase: bool,
                          build: (Option<SearchExpr>, bool) -> Result<L, Error>)
    requires i < |t|
    ensures Scan(t[..i + 1], data, lowerCase, build)
         == if Scan(t[..i], data, lowerCase, build).Failure? then Scan(t[..i], data, lowerCase, build)
            else Step(Scan(t[..i], data, lowerCase, build).value, t[i], data, lowerCase, build)
  {
    assert t[..i + 1][..i] == t[..i];
  }

  /** The loop of parseSimpleSearch: it walks the items once, keeping the
      pending negation flag, the operand list and the operator list. It also
      returns the accumulator as it stood when the loop stopped. */
  method ParseSimpleSearch<L>(t: seq<Item>, data: Detection, lowerCase: bool,
                              build: (Option<SearchExpr>, bool) -> Result<L, Error>)
    returns (r: Result<Branch<L>, ParseError>, acc: Acc<L>)
    ensures r == SimpleSearch(t, data, lowerCase, build)
    ensures r.Failure? && (r.error == WorkInProgress ==> Scan(t, data, lowerCase, build) == Success(acc))
    ensures |acc.modifiers| >= 1 && acc.modifiers[0] == TokNil && |acc.modifiers| >= |acc.rules|
  {
    var negated := false;
    var rules: seq<Branch<L>> := [];
    var modifiers := [TokNil];
    for i := 0 to |t|
      invariant Scan(t[..i], data, lowerCase, build) == Success(Acc(negated, rules, modifiers))
    {
      var item := t[i];
      ScanPrefixStep(t, i, data, lowerCase, build);
      match item.kind {
        case KeywordNot =>
          negated := true;
        case KeywordAnd =>
          modifiers := modifiers + [KeywordAnd];
        case KeywordOr =>
          modifiers := modifiers + [KeywordOr];
        case Identifier =>
          var leaf := build(Get(data, item.val), lowerCase);
          if leaf.Failure? {
            ScanFailureSticks(t, i + 1, data, lowerCase, build);
            assert Scan(t, data, lowerCase, build) == Failure(leaf.error);
            SimpleSearchOfScan(t, data, lowerCase, build);
            return Failure(Typed(leaf.error)), Acc(negated, rules, modifiers);
          }
          if |modifiers| - 1 != |rules| {
            modifiers := modifiers + [TokNil];
          }
          rules := rules + [Mark(leaf.value, negated)];
          negated := false;
        case _ =>
      }
    }
    assert t[..|t|] == t;
    SimpleSearchOfScan(t, data, lowerCase, build);
    return Failure(WorkInProgress), Acc(negated, rules, modifiers);
  }

  // ---------------------------------------------------------------------------
  // The search dispatcher and the parser entry point
  // ---------------------------------------------------------------------------

  /** The forms the dispatcher refuses before looking for groups. */
  predicate Unimplemented(t: seq<Item>, contains: (seq<Item>, Token) -> bool) {
    contains(t, IdentifierAll) || contains(t, IdentifierWithWildcard) || contains(t, StOne) || contains(t, StAll)
  }

  /** parseSearch: refuses `them`, wildcard identifiers and `1 of`/`all of`,
      then refuses any stream with groups, and otherwise defers to the
      flat-sequence accumulator. */
  function ParseSearch<L>(t: seq<Item>, data: Detection, lowerCase: bool,
                          contains: (seq<Item>, Token) -> bool,
                          findGroups: seq<Item> -> Groups,
                          build: (Option<SearchExpr>, bool) -> Result<L, Error>): (r: Result<Branch<L>, ParseError>)
    ensures r.Failure?
    ensures contains(t, IdentifierAll) ==> r.error == TodoThem
    ensures !contains(t, IdentifierAll) && contains(t, IdentifierWithWildcard) ==> r.error == TodoWildcard
    ensures Unimplemented(t, contains) ==> r.error in {TodoThem, TodoWildcard, TodoQuantifier}
    ensures !contains(t, IdentifierAll) && !contains(t, IdentifierWithWildcard) && (contains(t, StOne) || contains(t, StAll)) ==>
              r.error == TodoQuantifier
    ensures !Unimplemented(t, contains) && findGroups(t).GroupError? ==> r == Failure(Typed(findGroups(t).err))
    ensures !Unimplemented(t, contains) && findGroups(t) == Groups(true) ==>
              r.error == (if ConditionKey in data && data[ConditionKey].Text? then TodoSubGroups else ConditionNotText)
    ensures !Unimplemented(t, contains) && findGroups(t) == Groups(false) ==> r == SimpleSearch(t, data, lowerCase, build)
  {
    if contains(t, IdentifierAll) then Failure(TodoThem)
    else if contains(t, IdentifierWithWildcard) then Failure(TodoWildcard)
    else if contains(t, StOne) || contains(t, StAll) then Failure(TodoQuantifier)
    else
      match findGroups(t)
      case GroupError(e) => Failure(Typed(e))
      case Groups(found) =>
        if !found then SimpleSearch(t, data, lowerCase, build)
        else if ConditionKey in data && data[ConditionKey].Text? then Failure(TodoSubGroups)
        else Failure(ConditionNotText)
  }

  /** The refused forms are refused before group discovery and leaf building:
      the outcome does not depend on either helper. */
  lemma ParseSearchRejectsFirst<L>(t: seq<Item>, data: Detection, lowerCase: bool,
                                   contains: (seq<Item>, Token) -> bool,
                                   findGroups1: seq<Item> -> Groups, findGroups2: seq<Item> -> Groups,
                                   build1: (Option<SearchExpr>, bool) -> Result<L, Error>,
                                   build2: (Option<SearchExpr>, bool) -> Result<L, Error>)
    requires Unimplemented(t, contains)
    ensures ParseSearch(t, data, lowerCase, contains, findGroups1, build1)
         == ParseSearch(t, data, lowerCase, contains, findGroups2, build2)
  {
  }

  /** parser.run: fails without a lexer, stops at a validation error, and
      otherwise reports the dispatcher's error. Returns the updated parser. */
  function Run<L>(p: Parser, valid: (Token, Token) -> bool,
                  contains: (seq<Item>, Token) -> bool,
                  findGroups: seq<Item> -> Groups,
                  build: (Option<SearchExpr>, bool) -> Result<L, Error>): (r: (Parser, Option<ParseError>))
    ensures p.lex.None? ==> r == (p, Some(NoLexer))
    ensures p.lex.Some? ==> r.0.lex == p.lex && r.0.sigma == p.sigma
    ensures p.lex.Some? && !Accepts(p.previous, p.lex.value, valid) ==>
              r.1 == CollectAndValidate(p.tokens, p.previous, p.lex.value, valid).err
    ensures p.lex.Some? && Accepts(p.previous, p.lex.value, valid) ==>
              r.0.tokens == p.tokens + WithoutEof(p.lex.value) && r.0.previous == LitEof
    ensures p.lex.Some? && Accepts(p.previous, p.lex.value, valid) ==>
              r.1 == Some(ParseSearch(p.tokens + WithoutEof(p.lex.value), p.sigma, false, contains, findGroups, build).error)
    ensures r.1.Some?
  {
    if p.lex.None? then (p, Some(NoLexer))
    else
      var c := CollectAndValidate(p.tokens, p.previous, p.lex.value, valid);
      CollectAcceptsExactly(p.tokens, p.previous, p.lex.value, valid);
      var q := p.(tokens := c.tokens, previous := c.previous);
      if c.err.Some? then (q, c.err)
      else
        CollectStoresWithoutEof(p.tokens, p.previous, p.lex.value, valid);
        var s := ParseSearch(c.tokens, p.sigma, false, contains, findGroups, build);
        (q, Some(s.error))
  }

  /** When validation fails the dispatcher is never consulted: the outcome is
      the same whatever the group finder, containment test or leaf builder. */
  lemma RunStopsAtValidation<L>(p: Parser, valid: (Token, Token) -> bool,
                                contains1: (seq<Item>, Token) -> bool, contains2: (seq<Item>, Token) -> bool,
                                findGroups1: seq<Item> -> Groups, findGroups2: seq<Item> -> Groups,
                                build1: (Option<SearchExpr>, bool) -> Result<L, Error>,
                                build2: (Option<SearchExpr>, bool) -> Result<L, Error>)
    requires p.lex.Some? && !Accepts(p.previous, p.lex.value, valid)
    ensures Run(p, valid, contains1, findGroups1, build1) == Run(p, valid, contains2, findGroups2, build2)
    ensures Run(p, valid, contains1, findGroups1, build1).1 != Some(WorkInProgress)
  {
    CollectAcceptsExactly(p.tokens, p.previous, p.lex.value, valid);
  }
}

=== FILE: event.dfy ===
/** The concrete event used by the sigma package's tests
    (pkg/sigma/condition_test.go): a string-to-string map exposing the
    message-list and keyed-field capabilities of an event checker. */
module TestEvent {
  import opened Wrappers

  /** The dummyObject2 event: field name to field value. */
  type DummyObject = map<string, string>

  /** The fields whose values make up the message list, in this order. */
  const MessageKeys: seq<string> := ["Image", "CommandLine", "ParentImage"]

  /** The values of the present keys among `keys`, in key order. */
  function Present(d: DummyObject, keys: seq<string>): seq<string>
    decreases |keys|
  {
    if |keys| == 0 then []
    else
      var k := keys[|keys| - 1];
      Present(d, keys[..|keys| - 1]) + (if k in d then [d[k]] else [])
  }

  /** Every listed value belongs to one of the keys, and there are at most as
      many values as keys. */
  lemma {:induction false} PresentBounded(d: DummyObject, keys: seq<string>)
    ensures |Present(d, keys)| <= |keys|
    ensures forall s :: s in Present(d, keys) ==> exists k :: k in keys && k in d && d[k] == s
    decreases |keys|
  {
    if |keys| > 0 {
      var front := keys[..|keys| - 1];
      PresentBounded(d, front);
      forall s | s in Present(d, keys)
        ensures exists k :: k in keys && k in d && d[k] == s
      {
        if s in Present(d, front) {
          var k :| k in front && k in d && d[k] == s;
          assert k in keys;
        } else {
          assert keys[|keys| - 1] in keys;
        }
      }
    }
  }

  /** GetMessage: the values of Image, CommandLine and ParentImage, in that
      order, skipping the absent ones. */
  method GetMessage(d: DummyObject) returns (res: seq<string>)
    ensures res == (if "Image" in d then [d["Image"]] else [])
                 + (if "CommandLine" in d then [d["CommandLine"]] else [])
                 + (if "ParentImage" in d then [d["ParentImage"]] else [])
    ensures |res| <= 3
    ensures "Image" !in d && "CommandLine" !in d && "ParentImage" !in d ==> res == []
  {
    res := [];
    for i := 0 to |MessageKeys|
      invariant res == Present(d, MessageKeys[..i])
    {
      assert MessageKeys[..i + 1][..i] == MessageKeys[..i];
      var k := MessageKeys[i];
      if k in d {
        res := res + [d[k]];
      }
    }
    assert MessageKeys[..|MessageKeys|] == MessageKeys;
    assert MessageKeys[..2] == ["Image", "CommandLine"];
    assert MessageKeys[..1] == ["Image"];
  }

  /** GetField: the value and true for a present key, nothing and false
      otherwise. */
  function GetField(d: DummyObject, key: string): (r: (Option<string>, bool))
    ensures r.1 <==> key in d
    ensures r.1 ==> r.0 == Some(d[key])
    ensures !r.1 ==> r.0 == None
  {
    if key in d then (Some(d[key]), true) else (None, false)
  }

  /** The message list agrees with the keyed lookup: every listed value is the
      successful lookup of one of the message keys. */
  lemma MessagesAreFields(d: DummyObject)
    ensures forall s :: s in Present(d, MessageKeys) ==>
              exists k :: k in MessageKeys && GetField(d, k) == (Some(s), true)
  {
    PresentBounded(d, MessageKeys);
  }
}

=== FILE: sigma.dfy ===
/** Rule bookkeeping of the sigma package (pkg/sigma/sigma.go): configuration
    validation, per-group and per-map rule checks, cloning, and the routing and
    grouping loops that build a ruleset from decoded rules. File discovery,
    file reading and YAML decoding are not part of this model: their results
    enter as parameters. ParseDetection and Tree.Match enter as functions. */
module Sigma {
  import opened Wrappers
  import opened SigmaTypes

  // ---------------------------------------------------------------------------
  // Configuration
  // ---------------------------------------------------------------------------

  /** ExpandHome: a path that is empty or does not start with '~' comes back
      unchanged; otherwise the current user's home directory (the outcome of
      the user lookup, `currentUser`) is joined with the rest of the path. */
  function ExpandHome(path: string, currentUser: Result<string, Error>, join: (string, string) -> string): (r: Result<string, Error>)
    ensures |path| == 0 || path[0] != '~' ==> r == Success(path)
    ensures r.Failure? ==> currentUser.Failure? && r.error == currentUser.error
    ensures |path| > 0 && path[0] == '~' && currentUser.Success? ==> r == Success(join(currentUser.value, path[1..]))
  {
    if |path| == 0 || path[0] != '~' then Success(path)
    else if currentUser.Failure? then Failure(currentUser.error)
    else Success(join(currentUser.value, path[1..]))
  }

  /** The directory list after validation, and the error reported, if any.
      Entries before a failing one have already been rewritten in place;
      since one lookup outcome serves every entry, a failure means the lookup
      failed, and the entries that expanded before it had no leading '~'. */
  datatype Validated = Validated(directories: seq<string>, err: Option<Error>)

  function ExpandAll(dirs: seq<string>, currentUser: Result<string, Error>, join: (string, string) -> string): (v: Validated)
    ensures |v.directories| == |dirs|
    ensures v.err.None? <==> forall i :: 0 <= i < |dirs| ==> ExpandHome(dirs[i], currentUser, join).Success?
    ensures v.err.None? ==> forall i :: 0 <= i < |dirs| ==> v.directories[i] == ExpandHome(dirs[i], currentUser, join).value
    ensures forall i :: 0 <= i < |dirs| ==>
              || v.directories[i] == dirs[i]
              || (ExpandHome(dirs[i], currentUser, join).Success? && v.directories[i] == ExpandHome(dirs[i], currentUser, join).value)
    ensures v.err.Some? ==> currentUser.Failure? && v.err == Some(currentUser.error) && v.directories == dirs
    decreases |dirs|
  {
    if |dirs| == 0 then Validated([], None)
    else
      match ExpandHome(dirs[0], currentUser, join)
      case Failure(e) => Validated(dirs, Some(e))
      case Success(d) =>
        var rest := ExpandAll(dirs[1..], currentUser, join);
        assert forall i :: 0 < i < |dirs| ==> dirs[i] == dirs[1..][i - 1];
        Validated([d] + rest.directories, rest.err)
  }

  /** Config.Validate: no directory is an error; otherwise every directory is
      expanded in order, stopping at the first expansion error. */
  function Validate(directories: seq<string>, currentUser: Result<string, Error>, join: (string, string) -> string): (v: Validated)
    ensures |directories| == 0 ==> v == Validated(directories, Some(Message("Missing sigma rule directory")))
    ensures |v.directories| == |directories|
    ensures v.err.None? <==> |directories| > 0 && forall i :: 0 <= i < |directories| ==> ExpandHome(directories[i], currentUser, join).Success?
    ensures |directories| > 0 && v.err.Some? ==> currentUser.Failure? && v.err == Some(currentUser.error)
    ensures v.err.Some? ==> v.directories == directories
  {
    if |directories| == 0 then Validated(directories, Some(Message("Missing sigma rule directory")))
    else ExpandAll(directories, currentUser, join)
  }

  /** When entry `j` is the first whose expansion fails, the lookup error is
      reported and it and every later entry are left as they were. */
  lemma ExpandAllStopsAt(dirs: seq<string>, j: nat, currentUser: Result<string, Error>, join: (string, string) -> string)
    requires j < |dirs| && ExpandHome(dirs[j], currentUser, join).Failure?
    requires forall i :: 0 <= i < j ==> ExpandHome(dirs[i], currentUser, join).Success?
    ensures ExpandAll(dirs, currentUser, join).err == Some(currentUser.error)
    ensures ExpandAll(dirs, currentUser, join).directories[j..] == dirs[j..]
  {
  }

  /** The entries before the first failing one `j` hold their expansions.
      One lookup outcome serves every entry, so once one expansion fails the
      lookup has failed, and each earlier entry, having expanded, had no
      leading '~' and is its own expansion. */
  lemma ExpandAllRewritesBefore(dirs: seq<string>, j: nat, currentUser: Result<string, Error>, join: (string, string) -> string)
    requires j < |dirs| && ExpandHome(dirs[j], currentUser, join).Failure?
    requires forall i :: 0 <= i < j ==> ExpandHome(dirs[i], currentUser, join).Success?
    ensures forall i :: 0 <= i < j ==> ExpandAll(dirs, currentUser, join).directories[i] == ExpandHome(dirs[i], currentUser, join).value
    ensures forall i :: 0 <= i < j ==> ExpandHome(dirs[i], currentUser, join).value == dirs[i]
  {
  }

  /** Config.Validate on a failing list: the first failing entry decides the
      outcome: the lookup error is reported, the entries before it are
      rewritten, and it and every later entry are left as they were. */
  lemma ValidateStopsAt(directories: seq<string>, j: nat, currentUser: Result<string, Error>, join: (string, string) -> string)
    requires j < |directories| && ExpandHome(directories[j], currentUser, join).Failure?
    requires forall i :: 0 <= i < j ==> ExpandHome(directories[i], currentUser, join).Success?
    ensures var v := Validate(directories, currentUser, join);
            && v.err == Some(currentUser.error)
            && (forall i :: 0 <= i < j ==> v.directories[i] == ExpandHome(directories[i], currentUser, join).value)
            && v.directories[j..] == directories[j..]
  {
  }

  /** Without a leading '~' anywhere, validation of a non-empty list succeeds
      and leaves every directory as it was, whatever the user lookup gives. */
  lemma ValidateWithoutTilde(directories: seq<string>, currentUser: Result<string, Error>, join: (string, string) -> string)
    requires |directories| > 0
    requires forall i :: 0 <= i < |directories| ==> |directories[i]| == 0 || directories[i][0] != '~'
    ensures Validate(directories, currentUser, join) == Validated(directories, None)
  {
    var v := Validate(directories, currentUser, join);
    assert v.directories == directories;
  }

  // ---------------------------------------------------------------------------
  // Rules, groups and checks
  // ---------------------------------------------------------------------------

  /** A compiled rule: its matching tree (abstract), its raw rule and path. */
  datatype Rule<T> = Rule(tree: T, raw: RawRule, path: string)

  /** What a check reports for a matching rule. */
  datatype MatchResult = MatchResult(tags: seq<string>, id: string, title: string)

  type RuleGroup<T> = seq<Rule<T>>

  type RuleMap<T> = map<string, RuleGroup<T>>

  function ResultOf<T>(rule: Rule<T>): MatchResult {
    MatchResult(rule.raw.tags, rule.raw.id, rule.raw.title)
  }

  /** Reference: the results of every matching rule, in group order. */
  function Matching<T>(group: RuleGroup<T>, matches: T -> bool): seq<MatchResult>
    decreases |group|
  {
    if |group| == 0 then []
    else
      var last := group[|group| - 1];
      Matching(group[..|group| - 1], matches) + (if matches(last.tree) then [ResultOf(last)] else [])
  }

  /** What a group check promises: `ok` exactly when some rule matches; with
      `firstmatch` off, the results of all matching rules in order; with it on,
      the single result of the first matching rule; nothing when none matches. */
  ghost predicate CheckSpec<T>(group: RuleGroup<T>, matches: T -> bool, firstmatch: bool, results: seq<MatchResult>, ok: bool) {
    && (ok <==> exists i :: 0 <= i < |group| && matches(group[i].tree))
    && (!ok ==> results == [])
    && (ok && !firstmatch ==> results == Matching(group, matches))
    && (ok && firstmatch ==>
          exists j :: && 0 <= j < |group| && matches(group[j].tree)
                      && (forall i :: 0 <= i < j ==> !matches(group[i].tree))
                      && results == [ResultOf(group[j])])
  }

  /** RuleGroup.Check against one event; `matches` stands for Tree.Match on
      that event. */
  method CheckGroup<T>(group: RuleGroup<T>, matches: T -> bool, firstmatch: bool) returns (results: seq<MatchResult>, ok: bool)
    ensures CheckSpec(group, matches, firstmatch, results, ok)
    ensures ok <==> |results| > 0
  {
    var res: seq<MatchResult> := [];
    for i := 0 to |group|
      invariant res == Matching(group[..i], matches)
      invariant |res| == 0 <==> forall j :: 0 <= j < i ==> !matches(group[j].tree)
      invariant firstmatch ==> |res| == 0
    {
      assert group[..i + 1][..i] == group[..i];
      if matches(group[i].tree) {
        res := res + [ResultOf(group[i])];
        if |res| == 1 && firstmatch {
          return res, true;
        }
      }
    }
    assert group[..|group|] == group;
    if |res| > 0 {
      return res, true;
    }
    return [], false;
  }

  /** The group check's promise pins its outcome down completely. */
  lemma CheckSpecDeterministic<T>(group: RuleGroup<T>, matches: T -> bool, firstmatch: bool,
                                  results1: seq<MatchResult>, ok1: bool, results2: seq<MatchResult>, ok2: bool)
    requires CheckSpec(group, matches, firstmatch, results1, ok1)
    requires CheckSpec(group, matches, firstmatch, results2, ok2)
    ensures results1 == results2 && ok1 == ok2
  {
    if ok1 && firstmatch {
      var j1 :| && 0 <= j1 < |group| && matches(group[j1].tree)
                && (forall i :: 0 <= i < j1 ==> !matches(group[i].tree))
                && results1 == [ResultOf(group[j1])];
      var j2 :| && 0 <= j2 < |group| && matches(group[j2].tree)
                && (forall i :: 0 <= i < j2 ==> !matches(group[i].tree))
                && results2 == [ResultOf(group[j2])];
      assert j1 == j2;
    }
  }

  /** RuleMap.Check: an absent group yields no results and false; a present
      one is checked as a group. */
  method CheckMap<T>(m: RuleMap<T>, rulegroup: string, matches: T -> bool, firstmatch: bool) returns (results: seq<MatchResult>, ok: bool)
    ensures rulegroup !in m ==> results == [] && !ok
    ensures rulegroup in m ==> CheckSpec(m[rulegroup], matches, firstmatch, results, ok)
  {
    if rulegroup in m {
      results, ok := CheckGroup(m[rulegroup], matches, firstmatch);
    } else {
      results, ok := [], false;
    }
  }

  /** RuleMap.Clone: same keys, and each group element by element the same. */
  function Clone<T>(m: RuleMap<T>): (c: RuleMap<T>)
    ensures c.Keys == m.Keys
    ensures forall k :: k in c ==> |c[k]| == |m[k]| && forall i :: 0 <= i < |c[k]| ==> c[k][i] == m[k][i]
  {
    map k | k in m :: seq(|m[k]|, i requires 0 <= i < |m[k]| => m[k][i])
  }

  /** Values have no identity here, so the clone equals the original. */
  lemma CloneIsCopy<T>(m: RuleMap<T>)
    ensures Clone(m) == m
  {
    var c := Clone(m);
    forall k | k in m
      ensures c[k] == m[k]
    {
    }
  }

  // ---------------------------------------------------------------------------
  // Routing decoded rules
  // ---------------------------------------------------------------------------

  /** A decoded rule file: its raw rule and path, before compilation. */
  datatype Decoded = Decoded(raw: RawRule, path: string)

  /** A rule set aside as unsupported or broken. */
  datatype UnsupportedRawRule = UnsupportedRawRule(path: string, reason: string, error: Option<Error>, rule: Option<RawRule>)

  datatype Bucket = Unsupported | Broken

  /** Error kinds that mark a known limitation rather than a broken rule. */
  predicate IsUnsupportedKind(k: ErrorKind) {
    k.UnsupportedToken? || k.IncompleteDetection? || k.Wip?
  }

  /** The type switch of NewRuleset. */
  function Classify(e: Error): (b: Bucket)
    ensures b == Unsupported <==> !e.Message? && IsUnsupportedKind(e.kind)
  {
    match e
    case ByValue(k) => if IsUnsupportedKind(k) then Unsupported else Broken
    case ByPointer(k) => if IsUnsupportedKind(k) then Unsupported else Broken
    case Message(_) => Broken
  }

  /** Whether an error is held by value or by pointer does not change its
      bucket; plain formatted errors are always broken. */
  lemma ClassifyIgnoresIndirection(k: ErrorKind, text: string)
    ensures Classify(ByValue(k)) == Classify(ByPointer(k))
    ensures Classify(Message(text)) == Broken
  {
  }

  /** Reference: the rules whose detection compiles, in order. */
  function Parsed<T>(decoded: seq<Decoded>, parse: Detection -> Result<T, Error>): seq<Rule<T>>
    decreases |decoded|
  {
    if |decoded| == 0 then []
    else
      var dec := decoded[|decoded| - 1];
      Parsed(decoded[..|decoded| - 1], parse) +
        match parse(dec.raw.detection)
        case Success(tree) => [Rule(tree, dec.raw, dec.path)]
        case Failure(_) => []
  }

  /** Reference: the entries for rules whose compilation error falls in `bucket`, in order. */
  function Rejected<T>(decoded: seq<Decoded>, parse: Detection -> Result<T, Error>, bucket: Bucket): seq<UnsupportedRawRule>
    decreases |decoded|
  {
    if |decoded| == 0 then []
    else
      var dec := decoded[|decoded| - 1];
      Rejected(decoded[..|decoded| - 1], parse, bucket) +
        match parse(dec.raw.detection)
        case Failure(err) => if Classify(err) == bucket then [UnsupportedRawRule(dec.path, "", Some(err), Some(dec.raw))] else []
        case Success(_) => []
  }

  /** Every decoded rule lands in exactly one of the three outcomes. */
  lemma {:induction false} RoutePartition<T>(decoded: seq<Decoded>, parse: Detection -> Result<T, Error>)
    ensures |Parsed(decoded, parse)| + |Rejected(decoded, parse, Unsupported)| + |Rejected(decoded, parse, Broken)| == |decoded|
    decreases |decoded|
  {
    if |decoded| > 0 {
      RoutePartition(decoded[..|decoded| - 1], parse);
    }
  }

  /** `entry` is the set-aside record of some decoded rule whose compilation
      error falls in `bucket`: its path, its error and its own raw rule. */
  ghost predicate DescribesOwnRule<T>(entry: UnsupportedRawRule, decoded: seq<Decoded>, parse: Detection -> Result<T, Error>, bucket: Bucket) {
    exists i :: && 0 <= i < |decoded|
                && parse(decoded[i].raw.detection).Failure?
                && Classify(parse(decoded[i].raw.detection).error) == bucket
                && entry == UnsupportedRawRule(decoded[i].path, "", Some(parse(decoded[i].raw.detection).error), Some(decoded[i].raw))
  }

  /** Each set-aside entry describes its own rule. */
  lemma {:induction false} RejectedCarriesOwnRule<T>(decoded: seq<Decoded>, parse: Detection -> Result<T, Error>, bucket: Bucket)
    ensures forall k :: 0 <= k < |Rejected(decoded, parse, bucket)| ==>
              DescribesOwnRule(Rejected(decoded, parse, bucket)[k], decoded, parse, bucket)
    decreases |decoded|
  {
    if |decoded| > 0 {
      var front := decoded[..|decoded| - 1];
      RejectedCarriesOwnRule(front, parse, bucket);
      var rf := Rejected(front, parse, bucket);
      var r := Rejected(decoded, parse, bucket);
      var last := decoded[|decoded| - 1];
      var tail := match parse(last.raw.detection)
        case Failure(err) => if Classify(err) == bucket then [UnsupportedRawRule(last.path, "", Some(err), Some(last.raw))] else []
        case Success(_) => [];
      assert r == rf + tail;
      forall k | 0 <= k < |r|
        ensures DescribesOwnRule(r[k], decoded, parse, bucket)
      {
        if k < |rf| {
          assert r[k] == rf[k];
          assert DescribesOwnRule(rf[k], front, parse, bucket);
          var i :| && 0 <= i < |front|
                   && parse(front[i].raw.detection).Failure?
                   && Classify(parse(front[i].raw.detection).error) == bucket
                   && rf[k] == UnsupportedRawRule(front[i].path, "", Some(parse(front[i].raw.detection).error), Some(front[i].raw));
          assert front[i] == decoded[i];
        } else {
          var i := |decoded| - 1;
          assert |tail| == 1 && r[k] == tail[0];
          assert parse(decoded[i].raw.detection).Failure?;
          assert r[k] == UnsupportedRawRule(decoded[i].path, "", Some(parse(decoded[i].raw.detection).error), Some(decoded[i].raw));
        }
      }
    }
  }

  /** The set-aside entries as the compilation loop leaves them:
      `Rule: &dec.RawRule` takes the address of the range variable, which is a
      single variable under the loop semantics before Go 1.22. Once the loop ends
      it holds the last decoded rule, so every entry's Rule reads as that rule. */
  function RejectedAsWritten<T>(decoded: seq<Decoded>, parse: Detection -> Result<T, Error>, bucket: Bucket): (r: seq<UnsupportedRawRule>)
    ensures |r| == |Rejected(decoded, parse, bucket)|
    ensures forall k :: 0 <= k < |r| ==> r[k].rule == Some(decoded[|decoded| - 1].raw)
  {
    var entries := Rejected(decoded, parse, bucket);
    RoutePartition(decoded, parse);
    if |decoded| == 0 then []
    else seq(|entries|, k requires 0 <= k < |entries| => entries[k].(rule := Some(decoded[|decoded| - 1].raw)))
  }

  /** A raw rule that differs from others only in its id. */
  function SampleRule(id: string): RawRule {
    RawRule("", id, "", "", "", "", [], Logsource("windows", "", "", ""), map[], Null, Null, Null, [])
  }

  /** A compiler that refuses every detection as work in progress. */
  function RefuseAsWip(d: Detection): Result<int, Error> {
    Failure(ByValue(Wip))
  }

  /** Two rules refused as work in progress: as written, the first entry's Rule
      is the second rule, while its Path names the first file. */
  lemma RejectedAsWrittenLosesRule()
    ensures var decoded := [Decoded(SampleRule("a"), "a.yml"), Decoded(SampleRule("b"), "b.yml")];
            && |RejectedAsWritten(decoded, RefuseAsWip, Unsupported)| > 0
            && RejectedAsWritten(decoded, RefuseAsWip, Unsupported)[0].path == "a.yml"
            && RejectedAsWritten(decoded, RefuseAsWip, Unsupported)[0].rule == Some(SampleRule("b"))
            && Rejected(decoded, RefuseAsWip, Unsupported)[0].rule == Some(SampleRule("a"))
  {
    var decoded := [Decoded(SampleRule("a"), "a.yml"), Decoded(SampleRule("b"), "b.yml")];
    assert decoded[..1][..0] == [];
    assert decoded[..1] == [decoded[0]];
    assert Rejected(decoded[..1], RefuseAsWip, Unsupported) == [UnsupportedRawRule("a.yml", "", Some(ByValue(Wip)), Some(SampleRule("a")))];
  }

  /** The compilation loop of NewRuleset: compiled rules are kept in order;
      errors of the unsupported kinds are appended to `prior` (the entries set
      aside while reading files), all other errors go to the broken list. */
  method Route<T>(decoded: seq<Decoded>, parse: Detection -> Result<T, Error>, prior: seq<UnsupportedRawRule>)
    returns (rules: seq<Rule<T>>, unsupported: seq<UnsupportedRawRule>, broken: seq<UnsupportedRawRule>)
    ensures rules == Parsed(decoded, parse)
    ensures unsupported == prior + Rejected(decoded, parse, Unsupported)
    ensures broken == Rejected(decoded, parse, Broken)
    ensures |rules| + |unsupported| + |broken| == |prior| + |decoded|
  {
    rules, unsupported, broken := [], prior, [];
    for i := 0 to |decoded|
      invariant rules == Parsed(decoded[..i], parse)
      invariant unsupported == prior + Rejected(decoded[..i], parse, Unsupported)
      invariant broken == Rejected(decoded[..i], parse, Broken)
    {
      var dec := decoded[i];
      assert decoded[..i + 1][..i] == decoded[..i];
      match parse(dec.raw.detection) {
        case Failure(err) =>
          var entry := UnsupportedRawRule(dec.path, "", Some(err), Some(dec.raw));
          if Classify(err) == Unsupported {
            unsupported := unsupported + [entry];
          } else {
            broken := broken + [entry];
          }
        case Success(tree) =>
          rules := rules + [Rule(tree, dec.raw, dec.path)];
      }
    }
    assert decoded[..|decoded|] == decoded;
    RoutePartition(decoded, parse);
  }

  // ---------------------------------------------------------------------------
  // Grouping by log-source product
  // ---------------------------------------------------------------------------

  function Product<T>(rule: Rule<T>): string {
    rule.raw.logsource.product
  }

  const MissingProductReason: string := "Missing PRODUCT in LOGSOURCE"

  /** Reference: the rules of one product, in order. */
  function OfProduct<T>(rules: seq<Rule<T>>, product: string): seq<Rule<T>>
    decreases |rules|
  {
    if |rules| == 0 then []
    else
      var last := rules[|rules| - 1];
      OfProduct(rules[..|rules| - 1], product) + (if Product(last) == product then [last] else [])
  }

  /** Reference: the entries for rules without a product, in order. */
  function MissingProduct<T>(rules: seq<Rule<T>>): seq<UnsupportedRawRule>
    decreases |rules|
  {
    if |rules| == 0 then []
    else
      var last := rules[|rules| - 1];
      MissingProduct(rules[..|rules| - 1]) +
        (if Product(last) == "" then [UnsupportedRawRule(last.path, MissingProductReason, None, Some(last.raw))] else [])
  }

  /** The entries for rules without a product as the grouping loop leaves
      them: `Rule: &rule.RawRule` points at the range variable, which holds the
      last compiled rule once the loop ends (loop semantics before Go 1.22). */
  function MissingProductAsWritten<T>(rules: seq<Rule<T>>): (r: seq<UnsupportedRawRule>)
    ensures |r| == |MissingProduct(rules)|
    ensures forall k :: 0 <= k < |r| ==> r[k].rule == Some(rules[|rules| - 1].raw)
  {
    var entries := MissingProduct(rules);
    MissingProductBounded(rules);
    if |rules| == 0 then []
    else seq(|entries|, k requires 0 <= k < |entries| => entries[k].(rule := Some(rules[|rules| - 1].raw)))
  }

  lemma {:induction false} MissingProductBounded<T>(rules: seq<Rule<T>>)
    ensures |MissingProduct(rules)| <= |rules|
    decreases |rules|
  {
    if |rules| > 0 {
      MissingProductBounded(rules[..|rules| - 1]);
    }
  }

  /** Two compiled rules, the first without a product: as written, its entry's
      Rule is the second rule, while its Path names the first file. */
  lemma MissingProductAsWrittenLosesRule()
    ensures var noProduct := SampleRule("a").(logsource := Logsource("", "", "", ""));
            var rules := [Rule(0, noProduct, "a.yml"), Rule(1, SampleRule("b"), "b.yml")];
            && |MissingProductAsWritten(rules)| > 0
            && MissingProductAsWritten(rules)[0].path == "a.yml"
            && MissingProductAsWritten(rules)[0].rule == Some(SampleRule("b"))
            && MissingProduct(rules)[0].rule == Some(noProduct)
  {
    var noProduct := SampleRule("a").(logsource := Logsource("", "", "", ""));
    var rules := [Rule(0, noProduct, "a.yml"), Rule(1, SampleRule("b"), "b.yml")];
    assert rules[..1][..0] == [];
    assert rules[..1] == [rules[0]];
    assert MissingProduct(rules[..1]) == [UnsupportedRawRule("a.yml", MissingProductReason, None, Some(noProduct))];
  }

  /** `entry` is the set-aside record of some rule without a product. */
  ghost predicate RecordsMissingProduct<T>(entry: UnsupportedRawRule, rules: seq<Rule<T>>) {
    exists i :: && 0 <= i < |rules| && Product(rules[i]) == ""
                && entry == UnsupportedRawRule(rules[i].path, MissingProductReason, None, Some(rules[i].raw))
  }

  /** Each entry for a rule without a product describes its own rule. */
  lemma {:induction false} MissingProductCarriesOwnRule<T>(rules: seq<Rule<T>>)
    ensures forall k :: 0 <= k < |MissingProduct(rules)| ==> RecordsMissingProduct(MissingProduct(rules)[k], rules)
    decreases |rules|
  {
    if |rules| > 0 {
      var front := rules[..|rules| - 1];
      MissingProductCarriesOwnRule(front);
      var mf := MissingProduct(front);
      var m := MissingProduct(rules);
      var last := rules[|rules| - 1];
      var tail := if Product(last) == "" then [UnsupportedRawRule(last.path, MissingProductReason, None, Some(last.raw))] else [];
      assert m == mf + tail;
      forall k | 0 <= k < |m|
        ensures RecordsMissingProduct(m[k], rules)
      {
        if k < |mf| {
          assert m[k] == mf[k];
          assert RecordsMissingProduct(mf[k], front);
          var i :| && 0 <= i < |front| && Product(front[i]) == ""
                   && mf[k] == UnsupportedRawRule(front[i].path, MissingProductReason, None, Some(front[i].raw));
          assert front[i] == rules[i];
        } else {
          var i := |rules| - 1;
          assert |tail| == 1 && m[k] == tail[0];
          assert m[k] == UnsupportedRawRule(rules[i].path, MissingProductReason, None, Some(rules[i].raw));
        }
      }
    }
  }

  /** The non-empty products named by the rules. */
  ghost function Products<T>(rules: seq<Rule<T>>): set<string> {
    set i | 0 <= i < |rules| && Product(rules[i]) != "" :: Product(rules[i])
  }

  /** Total number of rules held by a rule map. */
  ghost function TotalSize<T>(m: RuleMap<T>): nat
    decreases m.Keys
  {
    if m.Keys == {} then 0
    else
      var k :| k in m.Keys;
      |m[k]| + TotalSize(m - {k})
  }

  /** The total can be split at any key, not only the one TotalSize picks. */
  lemma {:induction false} TotalSizeSplit<T>(m: RuleMap<T>, k: string)
    requires k in m
    ensures TotalSize(m) == |m[k]| + TotalSize(m - {k})
    decreases m.Keys
  {
    var j :| j in m.Keys && TotalSize(m) == |m[j]| + TotalSize(m - {j});
    if j != k {
      TotalSizeSplit(m - {j}, k);
      TotalSizeSplit(m - {k}, j);
      assert m - {j} - {k} == m - {k} - {j};
    }
  }

  /** Replacing or adding one group changes the total by the size difference. */
  lemma TotalSizeUpdate<T>(m: RuleMap<T>, k: string, v: RuleGroup<T>)
    ensures TotalSize(m[k := v]) == TotalSize(m) - (if k in m then |m[k]| else 0) + |v|
  {
    TotalSizeSplit(m[k := v], k);
    assert m[k := v] - {k} == m - {k};
    if k in m {
      TotalSizeSplit(m, k);
    } else {
      assert m - {k} == m;
    }
  }

  /** A product no rule names has no rules. */
  lemma {:induction false} OfProductAbsent<T>(rules: seq<Rule<T>>, product: string)
    requires product != "" && product !in Products(rules)
    ensures OfProduct(rules, product) == []
    decreases |rules|
  {
    if |rules| > 0 {
      var front := rules[..|rules| - 1];
      assert Product(rules[|rules| - 1]) != product;
      assert Products(front) <= Products(rules) by {
        forall p | p in Products(front)
          ensures p in Products(rules)
        {
          var i :| 0 <= i < |front| && Product(front[i]) != "" && Product(front[i]) == p;
          assert rules[i] == front[i];
        }
      }
      OfProductAbsent(front, product);
    }
  }

  lemma ProductsSnoc<T>(rules: seq<Rule<T>>, rule: Rule<T>)
    ensures Products(rules + [rule]) == Products(rules) + (if Product(rule) != "" then {Product(rule)} else {})
  {
    var s := rules + [rule];
    forall p | p in Products(s)
      ensures p in Products(rules) + (if Product(rule) != "" then {Product(rule)} else {})
    {
      var i :| 0 <= i < |s| && Product(s[i]) != "" && Product(s[i]) == p;
      if i < |rules| {
        assert s[i] == rules[i];
      }
    }
    forall p | p in Products(rules)
      ensures p in Products(s)
    {
      var i :| 0 <= i < |rules| && Product(rules[i]) != "" && Product(rules[i]) == p;
      assert s[i] == rules[i];
    }
    if Product(rule) != "" {
      assert s[|rules|] == rule;
    }
  }

  lemma OfProductSnoc<T>(rules: seq<Rule<T>>, rule: Rule<T>, product: string)
    ensures OfProduct(rules + [rule], product) == OfProduct(rules, product) + (if Product(rule) == product then [rule] else [])
  {
    assert (rules + [rule])[..|rules|] == rules;
  }

  lemma MissingProductSnoc<T>(rules: seq<Rule<T>>, rule: Rule<T>)
    ensures MissingProduct(rules + [rule]) == MissingProduct(rules) +
              (if Product(rule) == "" then [UnsupportedRawRule(rule.path, MissingProductReason, None, Some(rule.raw))] else [])
  {
    assert (rules + [rule])[..|rules|] == rules;
  }

  /** One iteration of the grouping loop for a rule that has a product. */
  function Place<T>(groups: RuleMap<T>, rule: Rule<T>): RuleMap<T> {
    var product := Product(rule);
    if product in groups then groups[product := groups[product] + [rule]]
    else groups[product := [rule]]
  }

  /** Placing a rule keeps every group equal to the rules of its product. */
  lemma PlaceKeepsGroups<T>(groups: RuleMap<T>, done: seq<Rule<T>>, rule: Rule<T>)
    requires Product(rule) != ""
    requires groups.Keys == Products(done)
    requires forall p :: p in groups ==> groups[p] == OfProduct(done, p)
    ensures Place(groups, rule).Keys == Products(done + [rule])
    ensures forall p :: p in Place(groups, rule) ==> Place(groups, rule)[p] == OfProduct(done + [rule], p)
    ensures TotalSize(Place(groups, rule)) == TotalSize(groups) + 1
  {
    var product := Product(rule);
    ProductsSnoc(done, rule);
    if product !in groups {
      OfProductAbsent(done, product);
    }
    var g := Place(groups, rule);
    forall p | p in g
      ensures g[p] == OfProduct(done + [rule], p)
    {
      OfProductSnoc(done, rule, p);
    }
    TotalSizeUpdate(groups, product, g[product]);
  }

  /** The state of the grouping loop after the first `i` rules. */
  ghost predicate GroupedUpTo<T>(rules: seq<Rule<T>>, i: nat, unsupported: seq<UnsupportedRawRule>,
                                 groups: RuleMap<T>, unsupportedAfter: seq<UnsupportedRawRule>, total: int)
    requires i <= |rules|
  {
    && groups.Keys == Products(rules[..i])
    && (forall p :: p in groups ==> groups[p] == OfProduct(rules[..i], p))
    && unsupportedAfter == unsupported + MissingProduct(rules[..i])
    && total == |rules| - |MissingProduct(rules[..i])|
    && TotalSize(groups) == i - |MissingProduct(rules[..i])|
  }

  /** A rule without a product is set aside and leaves the groups alone. */
  lemma GroupSkipStep<T>(rules: seq<Rule<T>>, i: nat, unsupported: seq<UnsupportedRawRule>,
                         groups: RuleMap<T>, unsupportedAfter: seq<UnsupportedRawRule>, total: int)
    requires i < |rules| && Product(rules[i]) == ""
    requires GroupedUpTo(rules, i, unsupported, groups, unsupportedAfter, total)
    ensures GroupedUpTo(rules, i + 1, unsupported, groups,
                        unsupportedAfter + [UnsupportedRawRule(rules[i].path, MissingProductReason, None, Some(rules[i].raw))], total - 1)
  {
    var rule := rules[i];
    assert rules[..i + 1] == rules[..i] + [rule];
    MissingProductSnoc(rules[..i], rule);
    ProductsSnoc(rules[..i], rule);
    forall p | p in groups
      ensures groups[p] == OfProduct(rules[..i + 1], p)
    {
      OfProductSnoc(rules[..i], rule, p);
    }
  }

  /** A rule with a product is appended to its product's group. */
  lemma GroupPlaceStep<T>(rules: seq<Rule<T>>, i: nat, unsupported: seq<UnsupportedRawRule>,
                          groups: RuleMap<T>, unsupportedAfter: seq<UnsupportedRawRule>, total: int)
    requires i < |rules| && Product(rules[i]) != ""
    requires GroupedUpTo(rules, i, unsupported, groups, unsupportedAfter, total)
    ensures GroupedUpTo(rules, i + 1, unsupported, Place(groups, rules[i]), unsupportedAfter, total)
  {
    var rule := rules[i];
    var done := rules[..i];
    var next := rules[..i + 1];
    assert next == done + [rule];
    MissingProductSnoc(done, rule);
    PlaceKeepsGroups(groups, done, rule);
    var g := Place(groups, rule);
    assert MissingProduct(next) == MissingProduct(done);
    assert g.Keys == Products(next);
    assert forall p :: p in g ==> g[p] == OfProduct(next, p);
    assert TotalSize(g) == i + 1 - |MissingProduct(next)|;
  }

  /** The grouping loop of NewRuleset: rules without a product are set aside
      and subtracted from the total; every other rule is appended, in order,
      to the group of its product. */
  method GroupByProduct<T>(rules: seq<Rule<T>>, unsupported: seq<UnsupportedRawRule>)
    returns (groups: RuleMap<T>, unsupportedAfter: seq<UnsupportedRawRule>, total: int)
    ensures groups.Keys == Products(rules)
    ensures forall p :: p in groups ==> groups[p] == OfProduct(rules, p)
    ensures unsupportedAfter == unsupported + MissingProduct(rules)
    ensures total == |rules| - |MissingProduct(rules)|
    ensures total == TotalSize(groups)
  {
    groups, unsupportedAfter, total := map[], unsupported, |rules|;
    for i := 0 to |rules|
      invariant GroupedUpTo(rules, i, unsupported, groups, unsupportedAfter, total)
    {
      var rule := rules[i];
      if Product(rule) == "" {
        GroupSkipStep(rules, i, unsupported, groups, unsupportedAfter, total);
        unsupportedAfter := unsupportedAfter + [UnsupportedRawRule(rule.path, MissingProductReason, None, Some(rule.raw))];
        total := total - 1;
        continue;
      }
      GroupPlaceStep(rules, i, unsupported, groups, unsupportedAfter, total);
      if Product(rule) in groups {
        groups := groups[Product(rule) := groups[Product(rule)] + [rule]];
      } else {
        groups := groups[Product(rule) := [rule]];
      }
    }
    assert rules[..|rules|] == rules;
  }

  // ---------------------------------------------------------------------------
  // Building a ruleset
  // ---------------------------------------------------------------------------

  datatype Ruleset<T> = Ruleset(
    dirs: seq<string>,
    rules: RuleMap<T>,
    total: int,
    unsupported: seq<UnsupportedRawRule>,
    broken: seq<UnsupportedRawRule>)

  const NoRulesMessage: string := "unable to parse any rules"

  /** NewRuleset from the point where the rule files have been read: `prior`
      holds the entries set aside while reading (multi-part YAML) and
      `decoded` the rules decoded from the other files, in file order. */
  method NewRuleset<T>(directories: seq<string>, currentUser: Result<string, Error>, join: (string, string) -> string,
                       prior: seq<UnsupportedRawRule>, decoded: seq<Decoded>, parse: Detection -> Result<T, Error>)
    returns (r: Option<Ruleset<T>>, err: Option<Error>)
    ensures Validate(directories, currentUser, join).err.Some? ==> r.None? && err == Validate(directories, currentUser, join).err
    ensures Validate(directories, currentUser, join).err.None? ==>
              r.Some? && r.value.dirs == Validate(directories, currentUser, join).directories
    ensures r.Some? ==> r.value.broken == Rejected(decoded, parse, Broken)
    ensures r.Some? && |Parsed(decoded, parse)| == 0 ==>
              && err == Some(Message(NoRulesMessage))
              && r.value.rules == map[] && r.value.total == 0
              && r.value.unsupported == prior + Rejected(decoded, parse, Unsupported)
    ensures r.Some? && |Parsed(decoded, parse)| > 0 ==>
              && err.None?
              && r.value.rules.Keys == Products(Parsed(decoded, parse))
              && (forall p :: p in r.value.rules ==> r.value.rules[p] == OfProduct(Parsed(decoded, parse), p))
              && r.value.unsupported == prior + Rejected(decoded, parse, Unsupported) + MissingProduct(Parsed(decoded, parse))
              && r.value.total == TotalSize(r.value.rules)
    ensures err.None? ==> r.Some? && r.value.total + (|r.value.unsupported| - |prior|) + |r.value.broken| == |decoded|
  {
    var v := Validate(directories, currentUser, join);
    if v.err.Some? {
      return None, v.err;
    }
    var rules, unsupported, broken := Route(decoded, parse, prior);
    var rs := Ruleset(v.directories, map[], 0, unsupported, broken);
    if |rules| == 0 {
      return Some(rs), Some(Message(NoRulesMessage));
    }
    var groups, unsupportedAfter, total := GroupByProduct(rules, unsupported);
    return Some(rs.(rules := groups, total := total, unsupported := unsupportedAfter)), None;
  }
}

=== FILE: types.dfy ===
/** The sigma package's shared types: raw rules, detection maps, search
    expressions and the typed error values (pkg/sigma/types.go). */
module SigmaTypes {
  import opened Wrappers

  /** Raw YAML content of one detection entry, as the YAML decoder yields it. */
  datatype Content =
    | Text(text: string)
    | Number(number: int)
    | Flag(flag: bool)
    | List(items: seq<Content>)
    | Mapping(entries: map<string, Content>)
    | Null

  /** The error types the package declares. */
  datatype ErrorKind =
    | MissingDetection
    | EmptyDetection
    | MissingCondition
    | IncompleteDetection(condition: string, keys: seq<string>, msg: string)
    | UnsupportedToken(msg: string)
    | Wip
    | InvalidRegex(pattern: string, cause: string)

  /** A Go `error` value: one of the declared error types, held either as a
      value or behind a pointer, or a plain formatted error. */
  datatype Error =
    | ByValue(kind: ErrorKind)
    | ByPointer(kind: ErrorKind)
    | Message(text: string)

  datatype SearchExprType = ExprUnk | ExprSelection | ExprKeywords

  /** One named search expression of a detection. */
  datatype SearchExpr = SearchExpr(name: string, kind: SearchExprType, content: Content)

  /** A detection maps expression names to raw content; a nil map and an empty
      map read alike, so both are the empty map here. */
  type Detection = map<string, Content>

  /** The reserved detection key that holds the condition string. */
  const ConditionKey: string := "condition"

  /** Expression names with this prefix are keyword lists. */
  const KeywordPrefix: string := "keyword"

  datatype Logsource = Logsource(product: string, category: string, service: string, definition: string)

  datatype RawRule = RawRule(
    file: string,
    id: string,
    title: string,
    status: string,
    description: string,
    author: string,
    references: seq<string>,
    logsource: Logsource,
    detection: Detection,
    fields: Content,
    falsepositives: Content,
    level: Content,
    tags: seq<string>)

  predicate HasPrefix(s: string, prefix: string) {
    prefix <= s
  }

  /** Classifies a search expression by the prefix of its name. */
  function Guess(e: SearchExpr): (r: SearchExpr)
    ensures r.name == e.name && r.content == e.content
    ensures r.kind != ExprUnk
    ensures r.kind == ExprKeywords <==> HasPrefix(e.name, KeywordPrefix)
    ensures r.kind == ExprSelection <==> !HasPrefix(e.name, KeywordPrefix)
  {
    e.(kind := if HasPrefix(e.name, KeywordPrefix) then ExprKeywords else ExprSelection)
  }

  /** The classification reads the name only: whatever kind the expression
      carried before, guessing gives the same answer, so guessing is idempotent. */
  lemma GuessDependsOnNameOnly(e: SearchExpr, k: SearchExprType, c: Content)
    ensures Guess(e.(kind := k)) == Guess(e)
    ensures Guess(Guess(e)) == Guess(e)
    ensures Guess(e.(content := c)).kind == Guess(e).kind
  {
  }

  /** The search expression stored under `key`, classified; None (nil) when
      the key is absent. The reserved condition key is not excluded. */
  function Get(d: Detection, key: string): (r: Option<SearchExpr>)
    ensures r.None? <==> key !in d
    ensures r.Some? ==> r.value.name == key && r.value.content == d[key]
    ensures r.Some? ==> (r.value.kind == ExprKeywords <==> HasPrefix(key, KeywordPrefix))
    ensures r.Some? ==> r.value.kind != ExprUnk
  {
    if key in d then Some(Guess(SearchExpr(key, ExprUnk, d[key]))) else None
  }

  /** Get answers for the reserved key too, as a selection, although Fields
      never yields it: an iteration order that reaches the condition key
      yields one expression fewer than it has keys. */
  lemma GetDoesNotExcludeCondition(d: Detection, order: seq<string>)
    requires ConditionKey in d
    requires forall i :: 0 <= i < |order| ==> order[i] in d
    ensures Get(d, ConditionKey) == Some(SearchExpr(ConditionKey, ExprSelection, d[ConditionKey]))
    ensures forall i :: 0 <= i < |Fields(d, order)| ==> Fields(d, order)[i].name != ConditionKey
    ensures ConditionKey in order ==> |Fields(d, order)| < |order|
    ensures IsIterationOrder(d, order) ==> |Fields(d, order)| == |order| - 1
  {
    assert ConditionKey[0] != KeywordPrefix[0];
    FieldsFollowOrder(d, order);
    WithoutConditionShorter(order);
    if IsIterationOrder(d, order) {
      WithoutConditionCount(order);
    }
  }

  /** Over an order without repetitions, removing the condition key drops
      exactly one entry when the key occurs and none otherwise. */
  lemma {:induction false} WithoutConditionCount(order: seq<string>)
    requires forall i, j :: 0 <= i < j < |order| ==> order[i] != order[j]
    ensures |WithoutCondition(order)| == |order| - (if ConditionKey in order then 1 else 0)
    decreases |order|
  {
    if |order| > 0 {
      var tail := order[1..];
      assert forall i, j :: 0 <= i < j < |tail| ==> tail[i] != tail[j] by {
        forall i, j | 0 <= i < j < |tail|
          ensures tail[i] != tail[j]
        {
          assert tail[i] == order[i + 1] && tail[j] == order[j + 1];
        }
      }
      WithoutConditionCount(tail);
      assert ConditionKey in order <==> order[0] == ConditionKey || ConditionKey in tail by {
        if ConditionKey in order {
          var i :| 0 <= i < |order| && order[i] == ConditionKey;
          if i > 0 {
            assert tail[i - 1] == order[i];
          }
        }
      }
      if order[0] == ConditionKey {
        assert ConditionKey !in tail by {
          forall i | 0 <= i < |tail|
            ensures tail[i] != ConditionKey
          {
            assert tail[i] == order[i + 1];
          }
        }
      }
    }
  }

  /** Removing the condition key never lengthens the order, and shortens it
      when the key occurs. */
  lemma {:induction false} WithoutConditionShorter(order: seq<string>)
    ensures |WithoutCondition(order)| <= |order|
    ensures ConditionKey in order ==> |WithoutCondition(order)| < |order|
    decreases |order|
  {
    if |order| > 0 {
      WithoutConditionShorter(order[1..]);
      if order[0] != ConditionKey && ConditionKey in order {
        assert ConditionKey in order[1..] by {
          var i :| 0 <= i < |order| && order[i] == ConditionKey;
          assert order[1..][i - 1] == order[i];
        }
      }
    }
  }

  /** A valid Go map iteration order for `d`: every key exactly once. */
  ghost predicate IsIterationOrder(d: Detection, order: seq<string>) {
    && (forall i :: 0 <= i < |order| ==> order[i] in d)
    && (forall k :: k in d ==> k in order)
    && (forall i, j :: 0 <= i < j < |order| ==> order[i] != order[j])
  }

  /** The search expressions of `d` other than the condition, in the map
      iteration order `order`. */
  function Fields(d: Detection, order: seq<string>): (r: seq<SearchExpr>)
    requires forall i :: 0 <= i < |order| ==> order[i] in d
    ensures |r| <= |order|
    ensures forall i :: 0 <= i < |r| ==> r[i].name != ConditionKey && Get(d, r[i].name) == Some(r[i])
    ensures forall i :: 0 <= i < |r| ==> r[i].name in order
    decreases |order|
  {
    if |order| == 0 then []
    else
      var rest := Fields(d, order[1..]);
      if order[0] != ConditionKey then [Guess(SearchExpr(order[0], ExprUnk, d[order[0]]))] + rest
      else rest
  }

  /** The names of the search expressions Fields yields, in the same order. */
  function FieldSlice(d: Detection, order: seq<string>): (r: seq<string>)
    requires IsIterationOrder(d, order)
    ensures forall k :: k in r <==> k in d && k != ConditionKey
    ensures forall i, j :: 0 <= i < j < |r| ==> r[i] != r[j]
    ensures |r| == |Fields(d, order)|
  {
    var fields := Fields(d, order);
    FieldsFollowOrder(d, order);
    WithoutConditionExact(order);
    var names := seq(|fields|, i requires 0 <= i < |fields| => fields[i].name);
    assert names == WithoutCondition(order);
    names
  }

  /** The iteration order with the condition key removed. */
  function WithoutCondition(order: seq<string>): seq<string> {
    if |order| == 0 then []
    else (if order[0] != ConditionKey then [order[0]] else []) + WithoutCondition(order[1..])
  }

  /** Fields yields one expression per key of the iteration order other than
      the condition key, in that order. */
  lemma {:induction false} FieldsFollowOrder(d: Detection, order: seq<string>)
    requires forall i :: 0 <= i < |order| ==> order[i] in d
    ensures |Fields(d, order)| == |WithoutCondition(order)|
    ensures forall i :: 0 <= i < |Fields(d, order)| ==> Fields(d, order)[i].name == WithoutCondition(order)[i]
    decreases |order|
  {
    if |order| > 0 {
      var rest := Fields(d, order[1..]);
      var names := WithoutCondition(order[1..]);
      FieldsFollowOrder(d, order[1..]);
      if order[0] != ConditionKey {
        var head := Guess(SearchExpr(order[0], ExprUnk, d[order[0]]));
        assert Fields(d, order) == [head] + rest;
        assert WithoutCondition(order) == [order[0]] + names;
        forall i | 0 <= i < |Fields(d, order)|
          ensures Fields(d, order)[i].name == WithoutCondition(order)[i]
        {
          if i > 0 {
            assert Fields(d, order)[i] == rest[i - 1];
            assert WithoutCondition(order)[i] == names[i - 1];
          }
        }
      } else {
        assert Fields(d, order) == rest;
        assert WithoutCondition(order) == [] + names;
      }
    }
  }

  /** Without the condition key, a repetition-free order keeps every other key
      exactly once. */
  lemma {:induction false} WithoutConditionExact(order: seq<string>)
    requires forall i, j :: 0 <= i < j < |order| ==> order[i] != order[j]
    ensures forall k :: k in WithoutCondition(order) <==> k in order && k != ConditionKey
    ensures forall i, j :: 0 <= i < j < |WithoutCondition(order)| ==> WithoutCondition(order)[i] != WithoutCondition(order)[j]
    decreases |order|
  {
    if |order| > 0 {
      var tail := order[1..];
      assert forall i, j :: 0 <= i < j < |tail| ==> tail[i] != tail[j] by {
        forall i, j | 0 <= i < j < |tail|
          ensures tail[i] != tail[j]
        {
          assert tail[i] == order[i + 1] && tail[j] == order[j + 1];
        }
      }
      WithoutConditionExact(tail);
      assert order[0] !in tail by {
        forall i | 0 <= i < |tail|
          ensures tail[i] != order[0]
        {
          assert tail[i] == order[i + 1];
        }
      }
      assert order == [order[0]] + tail;
    }
  }

  /** The rule's condition string: an error when the detection is empty, or
      when the condition key is missing or does not hold a string. */
  function Condition(r: RawRule): (c: Result<string, Error>)
    ensures c.Success? <==> ConditionKey in r.detection && r.detection[ConditionKey].Text?
    ensures c.Success? ==> r.detection[ConditionKey] == Text(c.value)
    ensures |r.detection| == 0 ==> c == Failure(Message("missing detection key"))
    ensures c.Failure? && |r.detection| > 0 ==> c == Failure(Message("condition key missing or not a string value"))
  {
    if |r.detection| == 0 then Failure(Message("missing detection key"))
    else if ConditionKey in r.detection && r.detection[ConditionKey].Text? then Success(r.detection[ConditionKey].text)
    else Failure(Message("condition key missing or not a string value"))
  }

  /** The condition string, or the empty string when there is none. */
  function GetCondition(r: RawRule): (c: string)
    ensures Condition(r).Success? ==> c == Condition(r).value
    ensures c != "" ==> ConditionKey in r.detection && r.detection[ConditionKey] == Text(c)
    ensures (ConditionKey !in r.detection || !r.detection[ConditionKey].Text?) ==> c == ""
  {
    match Condition(r)
    case Success(s) => s
    case Failure(_) => ""
  }
}

=== FILE: wrappers.dfy ===
/** Failure-compatible wrappers used throughout the model: Option stands for a
    Go pointer or interface value that may be nil, Result for a Go `(value, error)`
    pair in which exactly one side is meaningful. */
module Wrappers {

  datatype Option<+T> = None | Some(value: T)

  datatype Result<+T, +E> = Success(value: T) | Failure(error: E)
}
